=== FILE: README.md ===
# zeus control plane: a Dafny model of its core

zeus manages several Kubernetes clusters from one admin cluster. Each managed cluster is
declared as a `Cluster` custom resource. The resource carries the cluster's kubeconfig
credential blob and a status with conditions, version, node count and provider.

This project models the sequential logic that sits on top of client-go, gin and SPDY, and
proves properties of it:

- **Cluster reconciliation.** The controller's `syncCluster` step is a transition over four
  things: the registry of per-cluster records, the declaration store, the probe outcome and
  the node listing. Around it sit:
  - the work-queue retry counter (`handleErr`);
  - the event handlers that enqueue a cluster's key;
  - the condition-list update and provider inference;
  - the record builder `BuildClusterResource`. Every remote step of the builder is an input.
- **Terminal bridge.** `WSClient` decodes websocket frames into stdin bytes, resize events
  and errors. It wraps process output in `stdout` frames. It hands terminal sizes to the
  executor in order.
- **Pagination.** `FromRequest` applies the query defaults and parses with `strconv.Atoi`.
  `Paginate` does ceiling division, clamps the page and computes the slice window.
- **Read layer.**
  - The pod, node, namespace and cluster repositories: selector parsing first, then a
    missing-cluster error, then the IP, InternalIP, namespace and provider filters.
  - The services: a stable sort by name, then the page window (slice panics included).
  - `Log` and `Exec` up to the point where the stream opens.
- **Bootstrap.** The start-up decision that creates, refreshes or deletes the admin-cluster
  declaration. The controller is started with `Bootstrap.ControllerWorkers` = 2 workers
  (cmd/commands/root.go:75).
- **Serialisers.** The MySQL data source name, and the JSON response envelopes.

Modules follow the source layout:

| Module | Source file |
|---|---|
| `ClusterController` | pkg/kubernetes/controller/cluster/cluster_controller.go |
| `ClusterResource` | pkg/kubernetes/clusterresource/clusterresource.go |
| `ClusterApi` | pkg/kubernetes/apis/cluster/v1/types.go |
| `WsClient` | pkg/kubernetes/wsclient/wsclient.go |
| `Pagination` | pkg/pagination/pagination.go |
| `PodRepository`, `NodeRepository`, `NamespaceRepository`, `ClusterRepository` | internal/repository/*.go |
| `PodService`, `NodeService`, `NamespaceService`, `ClusterService` | internal/service/*.go |
| `Bootstrap` | cmd/commands/root.go |
| `DatabaseConfig` | pkg/database/config.go |
| `Response` | pkg/util/httputil/response/*.go |

Shared helper modules:

- `Results`: errors, `Option`, `Result`, and `Outcome` for a call that either succeeds or fails.
- `Strings`: `strings.Contains` and Go's byte-wise string order.
- `Decimal`: `strconv.Atoi` and `strconv.Itoa` for a 64-bit `int`.
- `Sorting`: `sort.SliceStable` by name, as an insertion sort.
- `KubeObjects`: pods, nodes, namespaces and the informer listers.
- `PageData`: the sort-then-window pipeline the four services share.

How the source's environment is represented:

- **Remote calls.** Every remote call is a parameter. The builder gets a `Connection`, which
  says how each step goes. The sync step gets `SyncInputs`: the connection, `/healthz`, the
  clock and `UpdateStatus`. The bootstrap gets an `AdminApi`. The service streams get
  `Outcome`s.
- **Label selectors.** A selector is a predicate over labels. `labels.Parse` is a function
  the caller supplies.
- **Stop channels.** A stop channel is a number. The controller allocates it from a counter
  and keeps the set of closed ones. `Valid` states that every live record's channel is
  open and that the channels are pairwise distinct.
- **Lock order.** The locked section logs its steps (`Build`, `Put`, `Close`, `Delete`), so
  that "teardown before rebuild" can be stated.
- **Go semantics.** Go's truncating `/` and `%` agree with Dafny's on the non-negative totals
  that `Paginate` receives. A slice `items[offset:end]` panics unless
  `0 <= offset <= end <= len`. A zero limit panics by division. Both panics are the
  `Panicked` outcome.

## Model

| member | source | states |
|---|---|---|
| ClusterController.SetProvider | pkg/kubernetes/controller/cluster/cluster_controller.go:237-246 | "tke" occurring anywhere gives Tencent; otherwise "eks" gives AWS; otherwise the empty provider. The occurrence is stated by an independent substring predicate, not by the search the code runs |
| ClusterController.SetProviderPrefersTencent | pkg/kubernetes/controller/cluster/cluster_controller.go:238-242 | a version containing both "tke" and "eks" is classified Tencent, because the first case wins |
| ClusterController.UpdateClusterCondition | pkg/kubernetes/controller/cluster/cluster_controller.go:216-231 | the copying loop yields the reference result: the old list with every entry of the new condition's type removed and the new condition appended |
| ClusterController.WithoutByType | pkg/kubernetes/controller/cluster/cluster_controller.go:222-227 | the skip loop empties the class of the skipped type and leaves every other type's entries exactly as they were, in order |
| ClusterController.ConditionReplaced | pkg/kubernetes/controller/cluster/cluster_controller.go:221-230 | after the update the new condition is last and is the only entry of its type; the entries of every other type keep their relative order |
| ClusterController.WithoutDrops | pkg/kubernetes/controller/cluster/cluster_controller.go:222-227 | an entry survives the filter exactly when it was in the list and has a different type |
| ClusterController.WithoutUnchanged | pkg/kubernetes/controller/cluster/cluster_controller.go:222-227 | a list with no entry of the skipped type is copied unchanged |
| ClusterController.UpdateIdempotent | pkg/kubernetes/controller/cluster/cluster_controller.go:221-230 | applying the same condition twice gives the same list as applying it once |
| ClusterController.ProbeCondition | pkg/kubernetes/controller/cluster/cluster_controller.go:161-183 | the condition has type Ready exactly when /healthz answered, and status True exactly when it answered; a failed probe gives NotReady with status False |
| ClusterController.ReadySurvivesNotReady | pkg/kubernetes/controller/cluster/cluster_controller.go:184 | Ready and NotReady are distinct types, so a Ready condition from an earlier pass stays in the list when a failed probe records NotReady |
| ClusterController.SplitMetaNamespaceKey | pkg/kubernetes/controller/cluster/cluster_controller.go:123-127 | a key without '/' is the name itself; any name it yields has no '/' and ends the key |
| ClusterController.KeyRoundTrip | pkg/kubernetes/controller/cluster/cluster_controller.go:95-103 | the key enqueued for a cluster-scoped object splits back into its name |
| ClusterController.OnEvent | pkg/kubernetes/controller/cluster/cluster_controller.go:65-71 | add, update (the new object) and delete all put the object's key in the pending set and leave the requeue counters alone |
| ClusterController.HandleErr | pkg/kubernetes/controller/cluster/cluster_controller.go:199-214 | success forgets the key (count 0). A failure is retried exactly when the key has fewer than 15 requeues, which raises the count by one and makes the key pending. Otherwise the key is dropped with its count reset. Other keys' counts are untouched |
| ClusterController.HandleErrKeepsBound | pkg/kubernetes/controller/cluster/cluster_controller.go:205-212 | no key's requeue count ever exceeds 15 |
| ClusterController.FailingRunsCount | pkg/kubernetes/controller/cluster/cluster_controller.go:199-214 | a key that fails on every run is processed 16 minus its current count times, or once if it is already at the cap |
| ClusterController.AlwaysFailingProcessedSixteenTimes | pkg/kubernetes/controller/cluster/cluster_controller.go:205-209 | a fresh key that always fails is processed exactly 16 times before it is dropped |
| ClusterController.InitialController | cmd/commands/root.go:70 | the controller starts with the empty registry, in a state that satisfies the channel invariant |
| ClusterController.EnsureRecord | pkg/kubernetes/controller/cluster/cluster_controller.go:139-159 | on success the registry holds the returned record under the name and its credentials equal the declaration's; on failure the name is absent; no other name's record changes; closed channels and channel numbers only grow |
| ClusterController.MissingRecordBuiltOnce | pkg/kubernetes/controller/cluster/cluster_controller.go:140-148 | a missing record is built once and stored, and never rebuilt in the same pass; nothing is closed |
| ClusterController.MatchingRecordReused | pkg/kubernetes/controller/cluster/cluster_controller.go:149 | a record whose credentials match is reused untouched, with no step taken |
| ClusterController.CredentialChangeTearsDownFirst | pkg/kubernetes/controller/cluster/cluster_controller.go:149-157 | on a credential change the old channel is closed and the entry deleted before the rebuild; a successful rebuild is stored with a fresh channel; a failed one leaves the name absent |
| ClusterController.EnsureRecordValid | pkg/kubernetes/controller/cluster/cluster_controller.go:139-159 | the locked section keeps every live record's channel open and distinct, and never closes a channel twice |
| ClusterController.RecheckValid | pkg/kubernetes/controller/cluster/cluster_controller.go:149-158 | the teardown-and-rebuild step keeps the channel invariant |
| ClusterController.SyncCluster | pkg/kubernetes/controller/cluster/cluster_controller.go:122-197 | a pass that changes the store succeeds, and a successful pass never adds or removes a declaration |
| ClusterController.AbsentDeclarationIsNoop | pkg/kubernetes/controller/cluster/cluster_controller.go:129-135 | a key whose declaration is gone returns no error and leaves registry, channels and store as they were: nothing is torn down on delete |
| ClusterController.SuccessfulSyncMatchesDeclaration | pkg/kubernetes/controller/cluster/cluster_controller.go:139-196 | after a successful pass the record's credentials equal the declaration's. The written status carries the record's version, the provider inferred from it, the number of nodes in its cache, and the probe condition merged into the old list. The spec is unchanged |
| ClusterController.SelectEverything | pkg/kubernetes/controller/cluster/cluster_controller.go:188 | listing with the everything selector returns the whole cache sequence in its order |
| ClusterController.ProbeFailureIsNotFatal | pkg/kubernetes/controller/cluster/cluster_controller.go:161-196 | with a failed probe, listable nodes and an accepted write, the pass succeeds and the last condition is NotReady with status False |
| ClusterController.NodeListErrorSkipsStatusWrite | pkg/kubernetes/controller/cluster/cluster_controller.go:188-192 | a node-list error is returned and no status is written |
| ClusterController.FailedRebuildLeavesNoRecord | pkg/kubernetes/controller/cluster/cluster_controller.go:149-156 | when credentials changed and the rebuild fails, the error is the first failing step's, the name is out of the registry, the old channel is closed, and the store is untouched |
| ClusterController.SyncKeepsValid | pkg/kubernetes/controller/cluster/cluster_controller.go:139-159 | a whole sync pass keeps the channel invariant |
| ClusterController.ProcessNextWorkItem | pkg/kubernetes/controller/cluster/cluster_controller.go:110-120 | a worker step applies the sync pass; the key is pending again exactly when the pass failed with fewer than 15 requeues, and a successful pass resets its count |
| ClusterController.ProcessKeepsInvariants | pkg/kubernetes/controller/cluster/cluster_controller.go:117-118 | a worker step keeps both the channel invariant and the requeue cap |
| ClusterResource.NewClusterResources | pkg/kubernetes/clusterresource/clusterresource.go:33-35 | the registry starts with no cluster in it |
| ClusterResource.BuildClusterResource | pkg/kubernetes/clusterresource/clusterresource.go:37-99 | the first failing step among parse, client config, clientset and version probe is returned before any stop channel exists. A stop channel is made exactly when all four succeed, and then the build returns a record holding exactly the input blob, the probed version, the stored handles and caches, and the new channel. The cache-sync wait cannot fail on a channel nobody closes |
| ClusterApi.NewCluster | cmd/commands/root.go:121-128 | a fresh declaration carries the given name and credential blob, no conditions and no nodes |
| WsClient.NewWSClientAsWritten | pkg/kubernetes/wsclient/wsclient.go:21-23 | the constructor as written leaves the size channel nil |
| WsClient.NewWSClient | pkg/kubernetes/wsclient/wsclient.go:21-23 | the corrected constructor starts with an allocated, empty size queue |
| WsClient.Read | pkg/kubernetes/wsclient/wsclient.go:48-64 | a decode error returns 0 with that error and leaves the queue alone. Stdin copies min(len p, len data) bytes into the front of p, keeps the rest of p, and drops the excess. Resize returns 0 and queues width = cols, height = rows, and blocks on a nil channel. Any other type returns 0 with "unknown message type". Only the first frame is consumed, and nothing is written |
| WsClient.StdinFitsWhole | pkg/kubernetes/wsclient/wsclient.go:56-57 | stdin data that fits is delivered whole |
| WsClient.Write | pkg/kubernetes/wsclient/wsclient.go:68-81 | a successful send emits exactly one stdout frame carrying p with zero rows and cols and returns len p; a failed send returns 0 with its error and changes nothing |
| WsClient.WriteAllPreservesStream | pkg/kubernetes/wsclient/wsclient.go:66-81 | successive writes append one stdout frame each, and the frames' payloads concatenate to the written bytes |
| WsClient.Next | pkg/kubernetes/wsclient/wsclient.go:25-30 | Next returns the oldest queued size and removes it; it blocks on an empty or nil channel |
| WsClient.ReadLoopQueuesResizes | pkg/kubernetes/wsclient/wsclient.go:58-60 | reading k frames queues the sizes of their resize frames, in frame order, after the ones already queued |
| WsClient.DrainInOrder | pkg/kubernetes/wsclient/wsclient.go:25-30 | k calls of Next return the first k queued sizes in order |
| WsClient.ResizesReachNextInOrder | pkg/kubernetes/wsclient/wsclient.go:58-60 | with an allocated queue, every resize read reaches Next, in the order the frames arrived |
| WsClient.ResizeBlocksAsWritten | pkg/kubernetes/wsclient/wsclient.go:21-23 | with the constructor as written, a single resize frame blocks Read forever |
| WsClient.ResizeDeliveredWhenAllocated | pkg/kubernetes/wsclient/wsclient.go:58-60 | with the corrected constructor, the same frame returns (0, nil) and Next yields width = cols, height = rows |
| Pagination.FromRequest | pkg/pagination/pagination.go:32-58 | fails exactly when a present page or limit is not an integer. The page's parse error is returned first, then the limit's. A missing page gives 1 and a missing limit gives 10. An explicit limit of 0 becomes 1. Other values pass through, negatives included, and the limit is never 0 |
| Pagination.FromRequestDefaults | pkg/pagination/pagination.go:40-55 | an empty query gives page 1, limit 10 |
| Pagination.FromRequestRoundTrip | pkg/pagination/pagination.go:34-52 | any 64-bit page and non-zero limit written into the query are read back unchanged |
| Decimal.Atoi | pkg/pagination/pagination.go:36 | strconv.Atoi returns a value exactly for an optional sign and at least one digit whose value fits in 64 bits, and that value is the literal's. A well-formed literal outside that range is a range error. A malformed text is a syntax error, unless the digit run after the sign already exceeds the largest uint64: then it is a range error |
| Decimal.ScanDigitsMeaning | pkg/pagination/pagination.go:36 | ParseUint's left-to-right digit scan ends in a range error exactly when the leading digit run is worth more than the largest uint64. Otherwise it ends in a syntax error when a non-digit follows the run, and with the run's value when the run is the whole text |
| Decimal.OverflowBeforeBadCharacter | pkg/pagination/pagination.go:46 | digits worth more than the largest uint64, followed by any non-digit, give a range error rather than a syntax error |
| Decimal.AtoiItoa | pkg/pagination/pagination.go:46 | Atoi inverts decimal formatting on every 64-bit integer |
| Pagination.PageTotal | pkg/pagination/pagination.go:62-66 | for a positive limit the page count is the ceiling of total / limit, and it is 0 exactly for an empty list |
| Pagination.Paginate | pkg/pagination/pagination.go:60-82 | total and limit are echoed. The page is clamped down to the page count when it exceeds a non-zero count and is otherwise kept, with no lower clamp. The window starts at (page - 1) * limit and ends one limit later or at the total, never past it |
| Pagination.WindowBounds | pkg/pagination/pagination.go:74-80 | for a positive limit and a page of at least 1, the window holds at most one limit and ends by the total. It is a non-empty valid slice of a non-empty list. On an empty list it is a valid slice only for page 1 |
| Pagination.PagesTile | pkg/pagination/pagination.go:60-82 | page 1 starts at 0, each page ends where the next begins, and the last page ends at the total |
| PageData.ListPage | internal/service/pod.go:33-51 | a repository error is returned as is. A zero limit or an inverted window panics. Otherwise the items are the window of the stable name sort, with the paginator Paginate produced, sorted and at most one limit long |
| PageData.PagedFromListed | internal/service/node.go:35-41 | every item on a page is one of the listed items |
| PageData.PanicsOnlyPastEmpty | internal/service/cluster.go:36-40 | for a positive limit and page at least 1, the slice panics exactly when the list is empty and a page past the first is asked for |
| PageData.ItemOnItsPage | pkg/pagination/pagination.go:76-80 | the item at sorted position q * limit + m is item m of page q + 1, so paging shows every item |
| Sorting.SortByName | internal/service/pod.go:40-42 | the sort is a permutation, ascending by name in Go's string order, and keeps the input order among equal names |
| Strings.ContainsIff | pkg/kubernetes/controller/cluster/cluster_controller.go:239 | strings.Contains holds exactly when the pattern occurs at some position |
| KubeObjects.Select | internal/repository/namespace.go:33 | a lister's List returns exactly the cached objects the selector matches, each as many times as it is cached |
| KubeObjects.SelectAppend | internal/repository/namespace.go:33 | selecting from a concatenation selects from each part. With the one-object case, this fixes the result's order to the order of the cache sequence |
| KubeObjects.SelectOne | internal/repository/namespace.go:33 | one object is kept exactly when the selector matches its labels |
| KubeObjects.SelectCount | internal/repository/namespace.go:33 | each cached object occurs in the selection as often as it is cached when the selector matches it, and not at all otherwise |
| KubeObjects.InNamespace | internal/repository/pod.go:51 | the namespace-scoped lister keeps exactly the pods of that namespace, each as many times as it is cached |
| KubeObjects.InNamespaceAppend | internal/repository/pod.go:51 | filtering a concatenation filters each part, so the pods keep the order of the cache sequence |
| KubeObjects.InNamespaceOne | internal/repository/pod.go:51 | one pod is kept exactly when it is in the namespace |
| KubeObjects.InNamespaceCount | internal/repository/pod.go:51 | each cached pod occurs as often as it is cached when it is in the namespace, and not at all otherwise |
| KubeObjects.GetPod | internal/repository/pod.go:60 | the pod with that namespace and name, or NotFound exactly when there is none |
| KubeObjects.GetNode | internal/repository/node.go:57 | the node with that name, or NotFound exactly when there is none |
| KubeObjects.GetNamespace | internal/repository/namespace.go:40 | the namespace with that name, or NotFound exactly when there is none |
| PodRepository.WithPodIP | internal/repository/pod.go:40-48 | the pod-IP filter keeps exactly the pods whose IP contains the text, each as many times as it was listed, and nothing else |
| PodRepository.WithPodIPAppend | internal/repository/pod.go:40-48 | filtering a concatenation filters each part, so the pods keep their listed order |
| PodRepository.WithPodIPOne | internal/repository/pod.go:41-46 | one pod is kept exactly when its IP contains the text |
| PodRepository.WithPodIPCount | internal/repository/pod.go:40-48 | each listed pod occurs as often as it was listed when its IP contains the text, and not at all otherwise |
| PodRepository.List | internal/repository/pod.go:30-54 | a selector error comes before the cluster check. With a pod IP, the result is the cluster-wide matches filtered by IP, with no error. Otherwise the namespace-scoped or cluster-wide matches are returned with the lister's error. In each case every kept pod appears as many times as it is cached |
| PodRepository.PodIPIgnoresNamespace | internal/repository/pod.go:38-48 | with a pod IP the namespace argument makes no difference |
| PodRepository.Get | internal/repository/pod.go:56-61 | a missing cluster is an error; otherwise the cached pod with that namespace and name, or NotFound when none exists |
| PodRepository.GetClientSet | internal/repository/pod.go:63-68 | succeeds exactly for a registered cluster and returns its stored clientset |
| PodRepository.GetRestConfig | internal/repository/pod.go:70-75 | succeeds exactly for a registered cluster and returns its stored rest config |
| NodeRepository.MatchCount | internal/repository/node.go:39-45 | a node has a positive number of matching addresses exactly when one of its InternalIP addresses contains the text |
| NodeRepository.WithNodeIP | internal/repository/node.go:36-48 | a node is in the result exactly when it was listed and one of its InternalIP addresses contains the text |
| NodeRepository.WithNodeIPCount | internal/repository/node.go:36-48 | a node appears as many times as it was listed multiplied by its number of matching InternalIP addresses |
| NodeRepository.WithNodeIPAppend | internal/repository/node.go:36-48 | filtering a concatenation filters each part, so the nodes keep their listed order |
| NodeRepository.WithNodeIPOne | internal/repository/node.go:37-46 | one node becomes one copy per matching InternalIP address |
| NodeRepository.WithNodeIPLength | internal/repository/node.go:37-46 | the result has one entry per matching address, so duplicates are possible |
| NodeRepository.DuplicatesPerAddress | internal/repository/node.go:38-46 | a node with two matching InternalIP addresses is listed twice; an ExternalIP address is ignored |
| NodeRepository.List | internal/repository/node.go:26-51 | a selector error comes before the cluster check. With a node IP, the matches are filtered by InternalIP, each node repeated once per matching address, and the error is dropped. Otherwise the lister's matches, each as many times as it is cached, and the lister's error are returned |
| NodeRepository.Get | internal/repository/node.go:53-58 | a missing cluster is an error; otherwise the cached node with that name, or NotFound when none exists |
| NamespaceRepository.List | internal/repository/namespace.go:25-34 | a selector error comes before the cluster check. Otherwise the lister's matches, each as many times as it is cached, and the lister's error |
| NamespaceRepository.Get | internal/repository/namespace.go:36-41 | a missing cluster is an error; otherwise the cached namespace with that name, or NotFound when none exists |
| ClusterRepository.FieldSelector | internal/repository/cluster.go:31-34 | an empty name gives no field selector; any other name gives "metadata.name=" followed by the name |
| ClusterRepository.FieldSelectorInjective | internal/repository/cluster.go:31-34 | different names give different field selectors |
| ClusterRepository.List | internal/repository/cluster.go:30-49 | a list error is returned. An empty provider gives the listed items unchanged. A provider keeps exactly the items with that provider, by exact equality, in their original order |
| ClusterRepository.Get | internal/repository/cluster.go:51-53 | pure delegation to the cluster client's Get |
| PodService.List | internal/service/pod.go:33-51 | the outcome is the page of the repository's listing for the same arguments. The repository's error is returned unchanged. It panics exactly when the limit is 0 or the window is inverted. Otherwise the paginator is the one Paginate gives for the listing's length, and the items are that window of the listing sorted stably by name. A page holds only cached pods of the cluster. With a pod IP, every pod matches it. With no pod IP and a namespace, every pod is in that namespace |
| PodService.Get | internal/service/pod.go:53-55 | a missing cluster is an error. Otherwise a pod with that namespace and name is returned exactly when the cache holds one, and the error is NotFound for resource "pod" |
| PodService.Log | internal/service/pod.go:57-64 | the clientset lookup fails first for a missing cluster; otherwise the stream outcome decides, and a success names the cluster's clientset, the namespace and the pod |
| PodService.ExecRequest | internal/service/pod.go:83-90 | exec asks for stdin, stdout, stderr and a TTY, running the bash-or-sh shell command in the given container |
| PodService.Exec | internal/service/pod.go:66-109 | a missing cluster fails before any stream. A session exists exactly when the executor was built. It uses the cluster's handles, the exec options, and the bridge from the constructor as written, whose size channel is nil. The result succeeds exactly when the executor and the stream both succeed |
| PodService.ExecCorrected | internal/service/pod.go:66-109 | the same steps with the size channel allocated: a session exists exactly when the executor was built, and it carries the corrected bridge |
| PodService.ExecResizeBlocks | internal/service/pod.go:77 | in every session Exec opens, a resize frame at the head of the socket blocks the bridge's Read forever |
| PodService.ExecCorrectedResizeQueued | internal/service/pod.go:77 | with the corrected bridge, the same frame returns with no error, and Next then yields width = cols, height = rows |
| NodeService.List | internal/service/node.go:25-42 | the outcome is the page of the repository's listing for the same arguments. The repository's error is returned unchanged. It panics exactly when the limit is 0 or the window is inverted. Otherwise the paginator is the one Paginate gives for the listing's length, and the items are that window of the listing sorted stably by name. A page holds only cached nodes, and with a node IP every node has a matching InternalIP |
| NodeService.PageTotalCountsAddresses | internal/service/node.go:27-35 | with a node IP, the paginator's total is the number of matching InternalIP addresses among the selector's matches, not the number of nodes |
| NodeService.Get | internal/service/node.go:44-46 | a missing cluster is an error. Otherwise a node with that name is returned exactly when the cache holds one, and the error is NotFound for resource "node" |
| NamespaceService.List | internal/service/namespace.go:25-42 | the outcome is the page of the repository's listing for the same arguments. The repository's error is returned unchanged. It panics exactly when the limit is 0 or the window is inverted. Otherwise the paginator is the one Paginate gives for the listing's length, and the items are that window of the listing sorted stably by name. A page holds only cached namespaces the selector matches |
| NamespaceService.Get | internal/service/namespace.go:44-46 | a missing cluster is an error. Otherwise a namespace with that name is returned exactly when the cache holds one, and the error is NotFound for resource "namespace" |
| ClusterService.List | internal/service/cluster.go:25-43 | the outcome is the page of the repository's filtered listing for the same arguments. The repository's error is returned unchanged. It panics exactly when the limit is 0 or the window is inverted. Otherwise the paginator is the one Paginate gives for the listing's length, and the items are that window of the listing sorted stably by name. A page holds only listed declarations, and with a provider every item has it |
| ClusterService.Get | internal/service/cluster.go:45-47 | pure delegation to the repository |
| Bootstrap.NameError | cmd/commands/root.go:119 | the client refuses an object name before sending anything exactly when it is empty or no valid path segment ("." or "..", or containing '/' or '%'); an empty name gets "resource name may not be empty" |
| Bootstrap.Get | cmd/commands/root.go:119 | a refused name fails with the client's error and the empty object, whatever the server would say. Otherwise a stored name is returned and a missing one is NotFound. Any other error comes with the empty object the generated client returns |
| Bootstrap.Update | cmd/commands/root.go:140 | an update succeeds exactly for a stored declaration whose name the client accepts and which the server accepts, and replaces it. An empty name is refused with "resource name may not be empty" |
| Bootstrap.EnsureAdminCluster | cmd/commands/root.go:115-145 | a failed file read is logged first, and nothing else logs a read failure; the contents read are the blob either way. Only the admin name can be added, and only after its Get reported NotFound, which a refused name never does. No declaration but the default one is ever removed. The default one disappears exactly when another name is in use, the admin Get did not report NotFound, the default's own Get succeeded and the Delete succeeded. A failed Delete is ignored |
| Bootstrap.MissingDeclarationCreated | cmd/commands/root.go:119-131 | under a name the client accepts, a missing admin declaration is created from the file contents; a fresh create never removes the default declaration |
| Bootstrap.CreateFailureLogged | cmd/commands/root.go:129-131 | under a name the client accepts, a failed create of a missing declaration is only logged and changes nothing |
| Bootstrap.ExistingDeclarationRefreshed | cmd/commands/root.go:132-144 | an existing declaration ends up with the current blob when the update is accepted. An equal blob causes no write. With another admin name, the default declaration is removed when its Get and the Delete succeed |
| Bootstrap.DefaultNameUnchanged | cmd/commands/root.go:133-138 | under the default name with an equal blob, nothing is written or deleted |
| Bootstrap.RefusedAdminNameOnlyLogged | cmd/commands/root.go:119-143 | an admin name the client refuses, such as "", creates nothing. The default declaration goes exactly when its own Get and the Delete succeed, and the update of the empty object is refused and logged |
| Bootstrap.OtherGetErrorOnlyLogged | cmd/commands/root.go:119-143 | a Get error other than NotFound for the admin name leads to an update of the empty object. The client refuses it, so the failure is only logged and no declaration is added or changed. The default declaration is still deleted when its own Get and the Delete succeed |
| DatabaseConfig.ConnectionURL | pkg/database/config.go:18-25 | the data source name starts with user, ':', password, "@tcp(" and always ends with the fixed charset, parseTime and loc options |
| DatabaseConfig.ParseConnectionURL | pkg/database/config.go:18-25 | the fields appear in the order user, password, host, port, database. When no field holds its own delimiter, they can all be read back |
| DatabaseConfig.ConnectionURLNotInjective | pkg/database/config.go:19-24 | without escaping, moving a ':' between user name and password gives the same data source name |
| Response.ErrorNotFound | pkg/util/httputil/response/error.go:16-22 | code 10004, read back as not-found, message "not found", payload unchanged |
| Response.ErrorInternalError | pkg/util/httputil/response/error.go:24-30 | code 10005, read back as internal error, message "internal error", payload unchanged |
| Response.NewSuccessResponse | pkg/util/httputil/response/success.go:13-19 | total; code 0, read back as success, message "success", payload unchanged |

## Left out

- I/O and concurrency:
  - HTTP handlers, routing, the websocket upgrade and log copying.
  - The RWMutex, the worker goroutines and the informers' goroutines.
  - The shutdown loop that closes every stop channel.
  - The unlocked reads of the shared registry in the repositories.
  - The model runs one sync pass at a time, with the lock's effect written as the locked section's step list.
- client-go internals. Label-selector syntax and matching are uninterpreted. Work-queue deduplication, backoff timing and `Done` are not modelled; only the pending set and the requeue counter are. The event recorder and klog are not modelled.
- Remote results are inputs, not computed:
  - the `/healthz` and ServerVersion RPCs;
  - `UpdateStatus`;
  - the admin cluster's answers: an error for each of the two Gets, and the outcome of the Create, the Update and the Delete. Whether a Get finds its name is decided by the declaration store;
  - the SPDY executor and the log stream.
- The cluster lister's Get in `syncCluster` reports only found or NotFound. Any other lister error would be returned as is, and is not modelled.
- `enqueueCluster` with a tombstone. A delete observed only as a tombstone would make the type assertion panic. `OnEvent` takes the cluster object itself.
- In-place mutation. `syncCluster` writes the status into the object the lister cached. The model builds a new declaration and stores it only when `UpdateStatus` is accepted.
- Iteration order of the informer caches. client-go's indexer `List` and `ByIndex` walk a Go map, so the source fixes no order between two calls. A cache here is a sequence that stands for one such iteration order, and every listing of it returns that order. The stable sort by name in the services makes pages deterministic except among objects with the same name, for example pods of one name in different namespaces, which can change pages between requests in the source.
- Lister errors. Cache listers do not fail in practice. The model still carries an optional error, so that the branches the code takes on `err` are represented.
- ClusterResource.BuildClusterResource: the model has no outcome for a cluster whose informers never sync. `WaitForCacheSync` returns false only once its stop channel is closed, and nothing closes the fresh channel, so such a build blocks forever while `syncCluster` holds the write lock. The model covers only builds that return.
- `Controller.Run`, `worker`, signal handling and configuration loading. Of the flags, only the default admin name ("admin-cluster", cmd/commands/option.go:16) and the worker count 2 are kept.
- Pagination.Paginate: requires a non-zero limit; Go divides by the limit and panics on 0, and `PageData.ListPage` reports that case as `Panicked` instead of calling it.
- Pagination.Paginate: integers are unbounded; a 64-bit overflow of `(page - 1) * limit` for extreme query values is not modelled.
- WsClient.Write: the JSON encoding of the frame (and Go's replacement of invalid UTF-8 in `string(p)`) and the 10-second write deadline are not modelled; a frame carries the bytes as they are, and a send either succeeds or fails.
- WsClient.Read: reading from a closed connection is the `ConnectionClosed` error; the transport's own framing errors are `Undecodable` frames.
- PodService.Log: the log options and the context are not modelled; the request records the clientset, namespace and pod.
- Bootstrap.NameError: client-go's message for a name that is no valid path segment, `invalid resource name "<name>": [<reasons>]`, is kept only as "invalid resource name".
- Decimal.Atoi: Go returns `*strconv.NumError` values wrapping `ErrSyntax` or `ErrRange`; the model keeps only which of the two it is, with the input text.
- The file read behind the credential blob (`fileutil.FileContent`, pkg/util/fileutil/file.go) is the `Bootstrap.FileContent` pair given to `Bootstrap.EnsureAdminCluster`: the bytes read, which are none when the open fails and those read before the error when a read fails part-way, and the error; `kubeutil` and the admin clientset construction are not modelled.
- gorm/MySQL connection setup and the connection-lifetime settings, which take no part in `ConnectionURL`.

## Findings

| source | as written | input that shows it | evidently intended | confidence | as-written member | corrected member |
|---|---|---|---|---|---|---|
| pkg/kubernetes/wsclient/wsclient.go:21-23 | `NewWSClient` sets only the connection, so `sizeChan` is nil; `Read` sends each resize on it (line 59) and `Next` receives from it (line 27), and both block forever on a nil channel | one websocket frame `{"type":"resize","rows":R,"cols":C}` read by the exec stream | the constructor allocates the size channel, so a resize returns (0, nil) and `Next` yields {Width: C, Height: R} | not executed | WsClient.ResizeBlocksAsWritten (on WsClient.NewWSClientAsWritten); PodService.ExecResizeBlocks (on PodService.Exec, which uses it) | WsClient.ResizeDeliveredWhenAllocated (on WsClient.NewWSClient; order proved by WsClient.ResizesReachNextInOrder); PodService.ExecCorrectedResizeQueued (on PodService.ExecCorrected) |

=== FILE: bootstrap.dfy ===
/** The admin-cluster declaration the process keeps for the cluster it runs against
    (cmd/commands/root.go, newClusterController). At start-up the credential file's contents are
    compared with the declaration named by the admin-cluster option: a missing declaration is
    created, a stale blob is overwritten, and when a non-default name is in use the declaration
    under the default name is deleted. No failure stops the start-up; each is only logged.
 */
module Bootstrap {
  import opened Results
  import opened ClusterApi

  const DefaultAdminClusterName: string := "admin-cluster"

  /** The number of workers the cluster controller is started with. */
  const ControllerWorkers: nat := 2

  /** The declarations on the admin cluster, and how the calls that can fail turn out: an error
      the Get of the admin name reports, one the Get of the default name reports (each other
      than a missing object, which the store decides), and the API's answers to a Create, an
      Update and a Delete. */
  datatype AdminApi = AdminApi(
    store: map<string, Cluster>,
    adminGetFailure: Option<Error>,
    defaultGetFailure: Option<Error>,
    createFailure: Option<Error>,
    updateFailure: Option<Error>,
    deleteFailure: Option<Error>)

  /** What was logged. */
  datatype LogEntry = ReadFailed(error: Error) | CreateFailed(error: Error) | UpdateFailed(error: Error)

  datatype Bootstrapped = Bootstrapped(store: map<string, Cluster>, log: seq<LogEntry>)

  /** What `fileutil.FileContent` hands back: the bytes read, which after a failed open are none
      and after a failure part-way are those read before it, and the error. */
  datatype FileContent = FileContent(contents: string, failure: Option<Error>)

  /** A name the REST client accepts as one path segment: not "." or "..", and no '/' or '%'. */
  predicate ValidPathSegment(name: string)
  {
    name != "." && name != ".." && '/' !in name && '%' !in name
  }

  /** The error the REST client's request builder records for an object name, before anything is
      sent: an empty name and a name that is no valid path segment are refused. */
  function NameError(name: string): (r: Option<Error>)
    ensures r.None? <==> name != "" && ValidPathSegment(name)
    ensures name == "" ==> r == Some(Remote("resource name may not be empty"))
  {
    if name == "" then Some(Remote("resource name may not be empty"))
    else if !ValidPathSegment(name) then Some(Remote("invalid resource name"))
    else None
  }

  /** The typed client's Get: a refused name fails without a call; otherwise NotFound for a
      missing name, and for any other error the empty object the generated client returns
      alongside it. */
  function Get(store: map<string, Cluster>, name: string, failure: Option<Error>): (r: (Cluster, Option<Error>))
    ensures NameError(name).Some? ==> r == (NewCluster("", ""), NameError(name))
    ensures NameError(name).None? && failure.None? && name in store ==> r == (store[name], None)
    ensures NameError(name).None? && failure.None? && name !in store ==> r.1 == Some(NotFound("clusters", name))
    ensures NameError(name).None? && failure.Some? ==> r == (NewCluster("", ""), failure)
  {
    match NameError(name)
    case Some(e) => (NewCluster("", ""), Some(e))
    case None =>
      match failure
      case Some(e) => (NewCluster("", ""), Some(e))
      case None =>
        if name in store then (store[name], None)
        else (NewCluster("", ""), Some(NotFound("clusters", name)))
  }

  /** The Get of the admin name reports NotFound. */
  predicate AdminNotFound(api: AdminApi, adminName: string)
  {
    && adminName != ""
    && ValidPathSegment(adminName)
    && match api.adminGetFailure
       case Some(e) => e.NotFound?
       case None => adminName !in api.store
  }

  /** Update: replaces the declaration of that name; an object without a name is refused by the
      client, and one the server does not hold is NotFound. */
  function Update(api: AdminApi, c: Cluster): (r: Result<map<string, Cluster>>)
    ensures r.Ok? <==> c.name != "" && ValidPathSegment(c.name) && c.name in api.store && api.updateFailure.None?
    ensures c.name == "" ==> r == Err(Remote("resource name may not be empty"))
    ensures r.Ok? ==> r.value == api.store[c.name := c]
  {
    if NameError(c.name).Some? then Err(NameError(c.name).value)
    else if c.name !in api.store then Err(NotFound("clusters", c.name))
    else match api.updateFailure
      case Some(e) => Err(e)
      case None => Ok(api.store[c.name := c])
  }

  /** The start-up decision: `file` is what reading the credential file gave, whose contents are
      used as the blob even when the read failed. The Delete's error is discarded, so a failed
      delete leaves the default declaration and logs nothing. */
  function EnsureAdminCluster(api: AdminApi, adminName: string, file: FileContent): (r: Bootstrapped)
    ensures file.failure.Some? ==> |r.log| > 0 && r.log[0] == ReadFailed(file.failure.value)
    ensures file.failure.None? ==> forall e :: e in r.log ==> !e.ReadFailed?
    ensures forall n :: n in r.store && n !in api.store ==> n == adminName && AdminNotFound(api, adminName)
    ensures forall n :: n in api.store && n != DefaultAdminClusterName ==> n in r.store
    ensures DefaultAdminClusterName in api.store ==>
      (DefaultAdminClusterName !in r.store <==>
         adminName != DefaultAdminClusterName && !AdminNotFound(api, adminName)
         && api.defaultGetFailure.None? && api.deleteFailure.None?)
  {
    var blob := file.contents;
    var readLog := if file.failure.Some? then [ReadFailed(file.failure.value)] else [];
    var (adm, err) := Get(api.store, adminName, api.adminGetFailure);
    if err.Some? && err.value.NotFound? then
      if api.createFailure.Some? then Bootstrapped(api.store, readLog + [CreateFailed(api.createFailure.value)])
      else Bootstrapped(api.store[adminName := NewCluster(adminName, blob)], readLog)
    else
      var deleted :=
        adminName != DefaultAdminClusterName
        && Get(api.store, DefaultAdminClusterName, api.defaultGetFailure).1.None?
        && api.deleteFailure.None?;
      var afterDelete := if deleted then api.store - {DefaultAdminClusterName} else api.store;
      var api' := api.(store := afterDelete);
      if adm.spec.kubeConfig != blob then
        match Update(api', adm.(spec := adm.spec.(kubeConfig := blob)))
        case Err(e) => Bootstrapped(afterDelete, readLog + [UpdateFailed(e)])
        case Ok(updated) => Bootstrapped(updated, readLog)
      else Bootstrapped(afterDelete, readLog)
  }

  /** A missing admin declaration is created from the file contents, and nothing else changes:
      in particular the declaration under the default name is left alone. */
  lemma MissingDeclarationCreated(api: AdminApi, adminName: string, file: FileContent)
    requires NameError(adminName).None?
    requires api.adminGetFailure.None? && adminName !in api.store && api.createFailure.None?
    ensures var r := EnsureAdminCluster(api, adminName, file);
      var blob := file.contents;
      && r.store == api.store[adminName := NewCluster(adminName, blob)]
      && (DefaultAdminClusterName in api.store ==> DefaultAdminClusterName in r.store)
  {
  }

  /** A failed create is logged and leaves the store as it was. */
  lemma CreateFailureLogged(api: AdminApi, adminName: string, file: FileContent)
    requires NameError(adminName).None?
    requires api.adminGetFailure.None? && adminName !in api.store && api.createFailure.Some?
    ensures var r := EnsureAdminCluster(api, adminName, file);
      r.store == api.store && r.log[|r.log| - 1] == CreateFailed(api.createFailure.value)
  {
  }

  /** An existing declaration ends up holding the current blob: overwritten when it differs
      (if the update is accepted), untouched when it is equal. The default declaration goes
      exactly when its own Get and the Delete both succeed. */
  lemma ExistingDeclarationRefreshed(api: AdminApi, adminName: string, file: FileContent)
    requires api.adminGetFailure.None? && adminName in api.store && NameError(adminName).None?
    requires api.store[adminName].name == adminName
    ensures var r := EnsureAdminCluster(api, adminName, file);
      var blob := file.contents;
      && (api.updateFailure.None? || api.store[adminName].spec.kubeConfig == blob ==>
            adminName in r.store && r.store[adminName].spec.kubeConfig == blob)
      && (api.store[adminName].spec.kubeConfig == blob ==> r.store[adminName] == api.store[adminName])
      && (adminName != DefaultAdminClusterName && api.defaultGetFailure.None? && api.deleteFailure.None? ==>
            DefaultAdminClusterName !in r.store)
  {
  }

  /** With the default name in use nothing is deleted and an equal blob causes no write. */
  lemma DefaultNameUnchanged(api: AdminApi, file: FileContent)
    requires api.adminGetFailure.None? && DefaultAdminClusterName in api.store
    requires api.store[DefaultAdminClusterName].spec.kubeConfig == file.contents
    ensures EnsureAdminCluster(api, DefaultAdminClusterName, file).store == api.store
  {
  }

  /** A Get error other than NotFound for the admin name falls into the update branch with an
      empty object: the update names no declaration and fails, so a differing blob is only
      logged and the admin declaration is untouched. The default declaration is still deleted
      when its own Get and the Delete succeed. */
  lemma OtherGetErrorOnlyLogged(api: AdminApi, adminName: string, file: FileContent)
    requires api.adminGetFailure.Some? && !api.adminGetFailure.value.NotFound?
    requires file.contents != ""
    ensures var r := EnsureAdminCluster(api, adminName, file);
      && r.log[|r.log| - 1] == UpdateFailed(Remote("resource name may not be empty"))
      && (forall n :: n in r.store ==> n in api.store && r.store[n] == api.store[n])
      && (adminName != DefaultAdminClusterName && DefaultAdminClusterName in api.store && api.defaultGetFailure.None?
            && api.deleteFailure.None?
          ==> DefaultAdminClusterName !in r.store)
  {
  }

  /** An admin name the client refuses (empty, say) makes the first Get fail without a call, so
      the update branch runs: nothing is created, the default declaration goes when its own Get
      and the Delete succeed, and the update of the empty object is refused and logged. */
  lemma RefusedAdminNameOnlyLogged(api: AdminApi, adminName: string, file: FileContent)
    requires NameError(adminName).Some?
    requires file.contents != ""
    ensures var r := EnsureAdminCluster(api, adminName, file);
      && r.log[|r.log| - 1] == UpdateFailed(Remote("resource name may not be empty"))
      && (forall n :: n in r.store ==> n in api.store && r.store[n] == api.store[n])
      && (DefaultAdminClusterName in api.store ==>
            (DefaultAdminClusterName !in r.store <==> api.defaultGetFailure.None? && api.deleteFailure.None?))
  {
  }
}

=== FILE: cluster_api.dfy ===
/** The `Cluster` custom resource held by the admin cluster: one declaration per managed
    cluster. Its only input is the credential blob in the spec; the status is written by the
    controller. Object metadata is reduced to the name.
 */
module ClusterApi {

  /** metav1.Time, kept opaque: the model never compares timestamps. */
  datatype Time = Time(stamp: int)

  /** The two condition types the controller writes. */
  const ClusterReady: string := "Ready"
  const ClusterNotReady: string := "NotReady"

  /** v1.ConditionStatus values. */
  const ConditionTrue: string := "True"
  const ConditionFalse: string := "False"

  datatype ClusterCondition = ClusterCondition(
    conditionType: string,
    status: string,
    lastUpdateTime: Time,
    lastTransitionTime: Time,
    reason: string,
    message: string)

  datatype ClusterSpec = ClusterSpec(kubeConfig: string)

  datatype ClusterStatus = ClusterStatus(
    conditions: seq<ClusterCondition>,
    kubernetesVersion: string,
    nodeCount: int,
    provider: string)

  datatype Cluster = Cluster(name: string, spec: ClusterSpec, status: ClusterStatus)

  /** A declaration as an operator or the bootstrap creates it: a name, a blob, empty status. */
  function NewCluster(name: string, kubeConfig: string): (c: Cluster)
    ensures c.name == name && c.spec.kubeConfig == kubeConfig
    ensures c.status.conditions == [] && c.status.nodeCount == 0
  {
    Cluster(name, ClusterSpec(kubeConfig), ClusterStatus([], "", 0, ""))
  }
}

=== FILE: cluster_controller.dfy ===
/** The reconciliation controller (pkg/kubernetes/controller/cluster): the work queue's
    requeue counter, the per-key reconciliation step `syncCluster` over the registry and the
    declaration store, and the pure helpers it uses. One step is modelled at a time; the
    worker pool, the lock and the informer's event loop are not.
 */
module ClusterController {
  import opened Results
  import opened Strings
  import opened Sorting
  import opened KubeObjects
  import opened ClusterApi
  import opened ClusterResource

  // ---------------------------------------------------------------------------------------
  // Provider inference

  /** setProvider: "tke" anywhere in the version wins, then "eks", else no provider. */
  function SetProvider(version: string): (r: string)
    ensures IsSubstring("tke", version) ==> r == "Tencent"
    ensures !IsSubstring("tke", version) && IsSubstring("eks", version) ==> r == "AWS"
    ensures !IsSubstring("tke", version) && !IsSubstring("eks", version) ==> r == ""
  {
    ContainsIff(version, "tke");
    ContainsIff(version, "eks");
    if Contains(version, "tke") then "Tencent"
    else if Contains(version, "eks") then "AWS"
    else ""
  }

  /** A version naming both vendors is attributed to Tencent. */
  lemma {:induction false} SetProviderPrefersTencent(version: string)
    requires Contains(version, "tke") && Contains(version, "eks")
    ensures SetProvider(version) == "Tencent"
  {
    ContainsIff(version, "tke");
  }

  // ---------------------------------------------------------------------------------------
  // Conditions

  function TypeOf(c: ClusterCondition): string
  {
    c.conditionType
  }

  /** The conditions whose type is not `t`, in their order. */
  function Without(conds: seq<ClusterCondition>, t: string): (r: seq<ClusterCondition>)
    ensures |r| <= |conds|
  {
    if |conds| == 0 then []
    else
      var last := conds[|conds| - 1];
      Without(conds[..|conds| - 1], t) + (if last.conditionType == t then [] else [last])
  }

  /** The condition list updateClusterCondition leaves behind. */
  function WithCondition(conds: seq<ClusterCondition>, c: ClusterCondition): seq<ClusterCondition>
  {
    Without(conds, c.conditionType) + [c]
  }

  /** updateClusterCondition: copies every condition of another type into a fresh list and
      appends the new condition. */
  method UpdateClusterCondition(conds: seq<ClusterCondition>, condition: ClusterCondition)
    returns (r: seq<ClusterCondition>)
    ensures r == WithCondition(conds, condition)
  {
    var newConditions: seq<ClusterCondition> := [];
    var i := 0;
    while i < |conds|
      invariant 0 <= i <= |conds|
      invariant newConditions == Without(conds[..i], condition.conditionType)
    {
      assert conds[..i + 1][..i] == conds[..i];
      if conds[i].conditionType != condition.conditionType {
        newConditions := newConditions + [conds[i]];
      }
      i := i + 1;
    }
    assert conds[..|conds|] == conds;
    r := newConditions + [condition];
  }

  lemma {:induction false} WithoutByType(conds: seq<ClusterCondition>, t: string, u: string)
    ensures WithKey(Without(conds, t), TypeOf, u) == (if u == t then [] else WithKey(conds, TypeOf, u))
  {
    if |conds| > 0 {
      var init := conds[..|conds| - 1];
      var last := conds[|conds| - 1];
      var kept := if last.conditionType == t then [] else [last];
      WithoutByType(init, t, u);
      WithKeyAppend(Without(init, t), kept, TypeOf, u);
      assert conds == init + [last];
      WithKeyAppend(init, [last], TypeOf, u);
      assert WithKey([last], TypeOf, u) == (if last.conditionType == u then [last] else []);
      assert WithKey(kept, TypeOf, u) == (if u == t then [] else WithKey([last], TypeOf, u));
    }
  }

  /** After an update the new condition is the only one of its type and sits last; the
      conditions of every other type are exactly as before, in the same order. */
  lemma ConditionReplaced(conds: seq<ClusterCondition>, c: ClusterCondition)
    ensures var r := WithCondition(conds, c);
      && r[|r| - 1] == c
      && WithKey(r, TypeOf, c.conditionType) == [c]
      && forall u :: u != c.conditionType ==> WithKey(r, TypeOf, u) == WithKey(conds, TypeOf, u)
  {
    var r := WithCondition(conds, c);
    forall u
      ensures WithKey(r, TypeOf, u) == (if u == c.conditionType then [c] else WithKey(conds, TypeOf, u))
    {
      WithKeyAppend(Without(conds, c.conditionType), [c], TypeOf, u);
      WithoutByType(conds, c.conditionType, u);
      assert WithKey([c], TypeOf, u) == (if c.conditionType == u then [c] else []);
    }
  }

  lemma {:induction false} WithoutDrops(conds: seq<ClusterCondition>, t: string)
    ensures forall x :: x in Without(conds, t) <==> x in conds && x.conditionType != t
  {
    if |conds| > 0 {
      WithoutDrops(conds[..|conds| - 1], t);
      assert conds == conds[..|conds| - 1] + [conds[|conds| - 1]];
    }
  }

  lemma {:induction false} WithoutUnchanged(conds: seq<ClusterCondition>, t: string)
    requires forall i :: 0 <= i < |conds| ==> conds[i].conditionType != t
    ensures Without(conds, t) == conds
  {
    if |conds| > 0 {
      WithoutUnchanged(conds[..|conds| - 1], t);
      assert conds == conds[..|conds| - 1] + [conds[|conds| - 1]];
    }
  }

  /** Applying the same condition twice gives the list that applying it once gives. */
  lemma UpdateIdempotent(conds: seq<ClusterCondition>, c: ClusterCondition)
    ensures WithCondition(WithCondition(conds, c), c) == WithCondition(conds, c)
  {
    var t := c.conditionType;
    var once := Without(conds, t);
    WithoutDrops(conds, t);
    assert forall i :: 0 <= i < |once| ==> once[i] in once;
    WithoutUnchanged(once, t);
    var twice := once + [c];
    assert twice[..|twice| - 1] == once;
  }

  /** The condition syncCluster records for a probe outcome. */
  function ProbeCondition(healthz: Outcome, now: Time): (c: ClusterCondition)
    ensures healthz.Pass? <==> c.conditionType == ClusterReady
    ensures healthz.Pass? <==> c.status == ConditionTrue
    ensures healthz.Fail? ==> c.conditionType == ClusterNotReady && c.status == ConditionFalse
  {
    if healthz.Pass? then
      ClusterCondition(ClusterReady, ConditionTrue, now, now, ClusterReady, "Cluster is available now")
    else
      ClusterCondition(ClusterNotReady, ConditionFalse, now, now,
                       "failed to connect get kubernetes version", "Cluster is not available now")
  }

  /** Ready and NotReady are different types, so recording NotReady keeps an earlier Ready
      condition in the list. */
  lemma ReadySurvivesNotReady(conds: seq<ClusterCondition>, ready: ClusterCondition, now: Time)
    requires ready in conds && ready.conditionType == ClusterReady
    ensures ready in WithCondition(conds, ProbeCondition(Fail(Remote("probe")), now))
  {
    WithoutDrops(conds, ClusterNotReady);
  }

  // ---------------------------------------------------------------------------------------
  // Work-queue keys and the requeue counter

  /** cache.MetaNamespaceKeyFunc for a cluster-scoped object: its name. */
  function MetaNamespaceKey(c: Cluster): string
  {
    c.name
  }

  /** cache.SplitMetaNamespaceKey, keeping the name: one '/'-separated part is a bare name,
      two are namespace and name, more are an error. */
  function SplitMetaNamespaceKey(key: string): (r: Result<string>)
    ensures '/' !in key ==> r == Ok(key)
    ensures r.Ok? ==> '/' !in r.value && IsSuffixOf(r.value, key)
  {
    var i := IndexOf(key, '/');
    if i == |key| then
      assert forall j :: 0 <= j < |key| ==> key[j] != '/';
      Ok(key)
    else
      var rest := key[i + 1..];
      if '/' in rest then Err(InvalidKey(key))
      else
        assert key[|key| - |rest|..] == rest;
        Ok(rest)
  }

  ghost predicate IsSuffixOf(s: string, t: string)
  {
    |s| <= |t| && t[|t| - |s|..] == s
  }

  /** A declaration's key gives back its name (Kubernetes names never contain '/'). */
  lemma KeyRoundTrip(c: Cluster)
    requires '/' !in c.name
    ensures SplitMetaNamespaceKey(MetaNamespaceKey(c)) == Ok(c.name)
  {
  }

  /** The items waiting to be processed and, per key, how often it has been requeued with
      rate limiting since it was last forgotten. */
  datatype Queue = Queue(pending: set<string>, requeues: map<string, nat>)

  const MaxRequeues: nat := 15

  function NumRequeues(q: Queue, key: string): nat
  {
    if key in q.requeues then q.requeues[key] else 0
  }

  /** The events the informer delivers for a declaration. */
  datatype WatchEvent = Added(obj: Cluster) | Updated(oldObj: Cluster, newObj: Cluster) | Deleted(obj: Cluster)

  /** enqueueCluster through the three handlers: every event adds the key of the (new) object,
      whatever its kind; a key already pending is not added twice. */
  function OnEvent(q: Queue, ev: WatchEvent): (r: Queue)
    ensures r.requeues == q.requeues
    ensures r.pending == q.pending + {MetaNamespaceKey(if ev.Updated? then ev.newObj else ev.obj)}
  {
    var obj := match ev
      case Added(c) => c
      case Updated(_, c) => c
      case Deleted(c) => c;
    q.(pending := q.pending + {MetaNamespaceKey(obj)})
  }

  datatype Disposition = Forgotten | Retried | Dropped

  datatype Handled = Handled(queue: Queue, disposition: Disposition)

  /** handleErr: success forgets the key; a failure is requeued with rate limiting while the key
      has been requeued fewer than 15 times, and is otherwise forgotten and dropped. */
  function HandleErr(q: Queue, key: string, err: Option<Error>): (r: Handled)
    ensures err.None? ==> r.disposition == Forgotten
    ensures err.Some? ==> (r.disposition == Retried <==> NumRequeues(q, key) < MaxRequeues)
    ensures r.disposition == Retried ==>
      NumRequeues(r.queue, key) == NumRequeues(q, key) + 1 && r.queue.pending == q.pending + {key}
    ensures r.disposition != Retried ==> NumRequeues(r.queue, key) == 0 && r.queue.pending == q.pending
    ensures forall k :: k != key ==> NumRequeues(r.queue, k) == NumRequeues(q, k)
  {
    if err.None? then
      Handled(q.(requeues := q.requeues - {key}), Forgotten)
    else if NumRequeues(q, key) < MaxRequeues then
      Handled(Queue(q.pending + {key}, q.requeues[key := NumRequeues(q, key) + 1]), Retried)
    else
      Handled(q.(requeues := q.requeues - {key}), Dropped)
  }

  /** No key is ever counted past the cap. */
  ghost predicate RequeuesBounded(q: Queue)
  {
    forall k :: k in q.requeues ==> q.requeues[k] <= MaxRequeues
  }

  lemma HandleErrKeepsBound(q: Queue, key: string, err: Option<Error>)
    requires RequeuesBounded(q)
    ensures RequeuesBounded(HandleErr(q, key, err).queue)
  {
    var r := HandleErr(q, key, err).queue;
    forall k | k in r.requeues
      ensures r.requeues[k] <= MaxRequeues
    {
      assert NumRequeues(r, k) == r.requeues[k];
    }
  }

  /** How many times a key is processed when every attempt fails: once now, then once more
      after every retry. */
  ghost function FailingRuns(q: Queue, key: string, e: Error): nat
    decreases if NumRequeues(q, key) < MaxRequeues then MaxRequeues - NumRequeues(q, key) else 0
  {
    var h := HandleErr(q, key, Some(e));
    1 + (if h.disposition == Retried then FailingRuns(h.queue, key, e) else 0)
  }

  lemma {:induction false} FailingRunsCount(q: Queue, key: string, e: Error)
    ensures FailingRuns(q, key, e)
         == (if NumRequeues(q, key) < MaxRequeues then MaxRequeues + 1 - NumRequeues(q, key) else 1)
    decreases if NumRequeues(q, key) < MaxRequeues then MaxRequeues - NumRequeues(q, key) else 0
  {
    var h := HandleErr(q, key, Some(e));
    if h.disposition == Retried {
      FailingRunsCount(h.queue, key, e);
    }
  }

  /** An item that always fails and has no requeue history is processed exactly 16 times. */
  lemma AlwaysFailingProcessedSixteenTimes(q: Queue, key: string, e: Error)
    requires key !in q.requeues
    ensures FailingRuns(q, key, e) == 16
  {
    FailingRunsCount(q, key, e);
  }

  // ---------------------------------------------------------------------------------------
  // The reconciliation step

  /** The registry plus the bookkeeping of stop channels: which have been closed, and the
      next identity a build will use. */
  datatype Controller = Controller(registry: Registry, closed: set<StopId>, nextStop: StopId)

  /** Every record's stop channel is open and its own; every channel ever made is below
      `nextStop`. */
  ghost predicate Valid(c: Controller)
  {
    && (forall s :: s in c.closed ==> s < c.nextStop)
    && (forall n :: n in c.registry ==> c.registry[n].stopCh < c.nextStop && c.registry[n].stopCh !in c.closed)
    && (forall n, m :: n in c.registry && m in c.registry && n != m ==>
          c.registry[n].stopCh != c.registry[m].stopCh)
  }

  /** The controller a process starts with: NewClusterResources and no channels yet. */
  function InitialController(): (c: Controller)
    ensures Valid(c) && c.registry == NewClusterResources()
  {
    Controller(NewClusterResources(), {}, 0)
  }

  /** What the locked section does to the registry, in order. */
  datatype Step = Build(name: string) | Put(name: string) | Close(stopCh: StopId) | Delete(name: string)

  datatype Locked = Locked(ctrl: Controller, record: Result<Record>, trace: seq<Step>)

  /** One call of the build routine under the lock: the controller with the channel counter
      advanced if a channel was made, and the result. */
  function BuildUnderLock(c: Controller, blob: string, conn: Connection): (Controller, Result<Record>)
  {
    var b := BuildClusterResource(blob, conn, c.nextStop);
    (c.(nextStop := if b.stopCreated then c.nextStop + 1 else c.nextStop), b.record)
  }

  /** Lines 149-158: a record whose blob differs from the declaration's is torn down (its stop
      channel closed, its entry deleted) and built again. */
  function Recheck(c: Controller, name: string, blob: string, conn: Connection, trace: seq<Step>): Locked
    requires name in c.registry
  {
    var rec := c.registry[name];
    if rec.kubeConfig == blob then Locked(c, Ok(rec), trace)
    else
      var prev := rec.stopCh;
      var torn := c.(closed := c.closed + {prev}, registry := c.registry - {name});
      var (built, result) := BuildUnderLock(torn, blob, conn);
      var steps := trace + [Close(prev), Delete(name), Build(name)];
      match result
      case Err(e) => Locked(built, Err(e), steps)
      case Ok(rebuilt) => Locked(built.(registry := built.registry[name := rebuilt]), Ok(rebuilt), steps + [Put(name)])
  }

  /** Lines 139-159 of syncCluster: make sure the registry holds a record built from `blob`. */
  function EnsureRecord(c: Controller, name: string, blob: string, conn: Connection): (r: Locked)
    ensures r.record.Ok? ==>
      name in r.ctrl.registry && r.ctrl.registry[name] == r.record.value && r.record.value.kubeConfig == blob
    ensures r.record.Err? ==> name !in r.ctrl.registry
    ensures r.ctrl.registry - {name} == c.registry - {name}
    ensures c.closed <= r.ctrl.closed && c.nextStop <= r.ctrl.nextStop
  {
    if name !in c.registry then
      var (built, result) := BuildUnderLock(c, blob, conn);
      match result
      case Err(e) => Locked(built, Err(e), [Build(name)])
      case Ok(rec) =>
        var stored := built.(registry := built.registry[name := rec]);
        Recheck(stored, name, blob, conn, [Build(name), Put(name)])
    else
      Recheck(c, name, blob, conn, [])
  }

  /** A missing entry is built once, stored, and not rebuilt in the same pass; nothing is
      closed. */
  lemma MissingRecordBuiltOnce(c: Controller, name: string, blob: string, conn: Connection)
    requires name !in c.registry
    ensures var r := EnsureRecord(c, name, blob, conn);
      && r.ctrl.closed == c.closed
      && r.trace == (if r.record.Ok? then [Build(name), Put(name)] else [Build(name)])
  {
  }

  /** A record already built from the declared blob is reused untouched. */
  lemma MatchingRecordReused(c: Controller, name: string, blob: string, conn: Connection)
    requires name in c.registry && c.registry[name].kubeConfig == blob
    ensures EnsureRecord(c, name, blob, conn) == Locked(c, Ok(c.registry[name]), [])
  {
  }

  /** On a credential change the old record's stop channel is closed and its entry deleted
      before the rebuild; if the rebuild fails the name is left out of the registry. */
  lemma CredentialChangeTearsDownFirst(c: Controller, name: string, blob: string, conn: Connection)
    requires name in c.registry && c.registry[name].kubeConfig != blob
    ensures var r := EnsureRecord(c, name, blob, conn);
      var prev := c.registry[name].stopCh;
      && prev in r.ctrl.closed
      && r.trace[..3] == [Close(prev), Delete(name), Build(name)]
      && (r.record.Ok? ==>
            r.trace == [Close(prev), Delete(name), Build(name), Put(name)] && r.record.value.stopCh == c.nextStop)
      && (r.record.Err? ==> r.trace == [Close(prev), Delete(name), Build(name)] && name !in r.ctrl.registry)
  {
  }

  /** The locked section keeps the channel bookkeeping sound, and never closes a channel that
      is already closed (closing one twice panics in Go). */
  lemma EnsureRecordValid(c: Controller, name: string, blob: string, conn: Connection)
    requires Valid(c)
    ensures Valid(EnsureRecord(c, name, blob, conn).ctrl)
    ensures name in c.registry ==> c.registry[name].stopCh !in c.closed
  {
    var r := EnsureRecord(c, name, blob, conn);
    if name !in c.registry {
      var (built, result) := BuildUnderLock(c, blob, conn);
      if result.Ok? {
        var stored := built.(registry := built.registry[name := result.value]);
        assert Valid(stored);
        RecheckValid(stored, name, blob, conn, [Build(name), Put(name)]);
      }
    } else {
      RecheckValid(c, name, blob, conn, []);
    }
  }

  lemma RecheckValid(c: Controller, name: string, blob: string, conn: Connection, trace: seq<Step>)
    requires Valid(c) && name in c.registry
    ensures Valid(Recheck(c, name, blob, conn, trace).ctrl)
  {
    var rec := c.registry[name];
    if rec.kubeConfig != blob {
      var prev := rec.stopCh;
      var torn := c.(closed := c.closed + {prev}, registry := c.registry - {name});
      assert Valid(torn);
    }
  }

  /** What one pass needs from the outside world: how a build from the declared blob turns
      out, whether /healthz answers, the clock, and whether UpdateStatus is accepted. */
  datatype SyncInputs = SyncInputs(conn: Connection, healthz: Outcome, now: Time, statusWrite: Outcome)

  /** The declarations on the admin cluster, by name. */
  type Store = map<string, Cluster>

  datatype SyncResult = SyncResult(ctrl: Controller, store: Store, err: Option<Error>, trace: seq<Step>)

  /** The status syncCluster writes: the updated conditions, then version, provider and node
      count read from the registry record. */
  function ObservedStatus(cluster: Cluster, rec: Record, healthz: Outcome, now: Time, nodeCount: nat): ClusterStatus
  {
    ClusterStatus(WithCondition(cluster.status.conditions, ProbeCondition(healthz, now)),
                  rec.serverVersion, nodeCount, SetProvider(rec.serverVersion))
  }

  /** syncCluster: one reconciliation of the declaration named by `key`. */
  function SyncCluster(c: Controller, store: Store, key: string, io: SyncInputs): (r: SyncResult)
    ensures r.err.None? ==> r.store.Keys == store.Keys
    ensures r.store != store ==> r.err.None?
  {
    match SplitMetaNamespaceKey(key)
    case Err(e) => SyncResult(c, store, Some(e), [])
    case Ok(name) =>
      if name !in store then SyncResult(c, store, None, [])
      else
        var cluster := store[name];
        var locked := EnsureRecord(c, cluster.name, cluster.spec.kubeConfig, io.conn);
        match locked.record
        case Err(e) => SyncResult(locked.ctrl, store, Some(e), locked.trace)
        case Ok(_) =>
          var rec := locked.ctrl.registry[cluster.name];
          var nodes := ListNodes(rec.caches.nodes, Everything());
          if nodes.err.Some? then SyncResult(locked.ctrl, store, nodes.err, locked.trace)
          else
            var updated := cluster.(status := ObservedStatus(cluster, rec, io.healthz, io.now, |nodes.items|));
            match io.statusWrite
            case Fail(e) => SyncResult(locked.ctrl, store, Some(e), locked.trace)
            case Pass => SyncResult(locked.ctrl, store[name := updated], None, locked.trace)
  }

  /** Each declaration is stored under its own name. */
  ghost predicate WellKeyed(store: Store)
  {
    forall n :: n in store ==> store[n].name == n
  }

  /** A key whose declaration is gone is dropped without error and without touching the
      registry: nothing is torn down on delete. */
  lemma AbsentDeclarationIsNoop(c: Controller, store: Store, name: string, io: SyncInputs)
    requires '/' !in name && name !in store
    ensures SyncCluster(c, store, name, io) == SyncResult(c, store, None, [])
  {
  }

  /** A successful pass leaves a record built from the declared blob, and writes version,
      provider and node count taken from that record. */
  lemma SuccessfulSyncMatchesDeclaration(c: Controller, store: Store, name: string, io: SyncInputs)
    requires '/' !in name && name in store && WellKeyed(store)
    requires SyncCluster(c, store, name, io).err.None?
    ensures var r := SyncCluster(c, store, name, io);
      && name in r.ctrl.registry
      && r.ctrl.registry[name].kubeConfig == store[name].spec.kubeConfig
      && name in r.store
      && r.store[name].spec == store[name].spec
      && r.store[name].status.kubernetesVersion == r.ctrl.registry[name].serverVersion
      && r.store[name].status.provider == SetProvider(r.ctrl.registry[name].serverVersion)
      && r.store[name].status.nodeCount == |r.ctrl.registry[name].caches.nodes.objects|
      && r.store[name].status.conditions == WithCondition(store[name].status.conditions, ProbeCondition(io.healthz, io.now))
  {
    var rec := SyncCluster(c, store, name, io).ctrl.registry[name];
    assert Select(rec.caches.nodes.objects, Everything(), NodeLabels) == rec.caches.nodes.objects by {
      SelectEverything(rec.caches.nodes.objects);
    }
  }

  lemma {:induction false} SelectEverything(nodes: seq<Node>)
    ensures Select(nodes, Everything(), NodeLabels) == nodes
  {
    if |nodes| > 0 {
      SelectEverything(nodes[1..]);
      assert nodes == [nodes[0]] + nodes[1..];
    }
  }

  /** A failed probe is not fatal: with the record in place, the node list readable and the
      status write accepted, the pass succeeds and records NotReady/False last. */
  lemma ProbeFailureIsNotFatal(c: Controller, store: Store, name: string, io: SyncInputs)
    requires '/' !in name && name in store && WellKeyed(store)
    requires io.healthz.Fail? && io.statusWrite.Pass?
    requires EnsureRecord(c, name, store[name].spec.kubeConfig, io.conn).record.Ok?
    requires EnsureRecord(c, name, store[name].spec.kubeConfig, io.conn).record.value.caches.nodes.failure.None?
    ensures var r := SyncCluster(c, store, name, io);
      && r.err.None?
      && var conds := r.store[name].status.conditions;
         |conds| > 0 && conds[|conds| - 1].conditionType == ClusterNotReady
         && conds[|conds| - 1].status == ConditionFalse
  {
  }

  /** A node-list error ends the pass before UpdateStatus: the store is untouched. */
  lemma NodeListErrorSkipsStatusWrite(c: Controller, store: Store, name: string, io: SyncInputs)
    requires '/' !in name && name in store && WellKeyed(store)
    requires EnsureRecord(c, name, store[name].spec.kubeConfig, io.conn).record.Ok?
    requires EnsureRecord(c, name, store[name].spec.kubeConfig, io.conn).record.value.caches.nodes.failure.Some?
    ensures var r := SyncCluster(c, store, name, io);
      r.err.Some? && r.store == store
  {
  }

  /** A failed rebuild after a credential change returns the build error and leaves the name
      out of the registry; the old record's channel stays closed. */
  lemma FailedRebuildLeavesNoRecord(c: Controller, store: Store, name: string, io: SyncInputs)
    requires '/' !in name && name in store && WellKeyed(store)
    requires name in c.registry && c.registry[name].kubeConfig != store[name].spec.kubeConfig
    requires !Connected(io.conn)
    ensures var r := SyncCluster(c, store, name, io);
      && r.err == Some(FirstFailure(io.conn))
      && name !in r.ctrl.registry
      && c.registry[name].stopCh in r.ctrl.closed
      && r.store == store
  {
    CredentialChangeTearsDownFirst(c, name, store[name].spec.kubeConfig, io.conn);
  }

  lemma SyncKeepsValid(c: Controller, store: Store, key: string, io: SyncInputs)
    requires Valid(c)
    ensures Valid(SyncCluster(c, store, key, io).ctrl)
  {
    match SplitMetaNamespaceKey(key)
    case Err(_) =>
    case Ok(name) =>
      if name in store {
        EnsureRecordValid(c, store[name].name, store[name].spec.kubeConfig, io.conn);
      }
  }

  // ---------------------------------------------------------------------------------------
  // One worker iteration

  datatype World = World(ctrl: Controller, store: Store, queue: Queue)

  /** processNextWorkItem for a key the queue hands out: take it off the pending set, sync it,
      and let handleErr decide its future. */
  function ProcessNextWorkItem(w: World, key: string, io: SyncInputs): (r: World)
    requires key in w.queue.pending
    ensures var s := SyncCluster(w.ctrl, w.store, key, io);
      && r.ctrl == s.ctrl && r.store == s.store
      && (key in r.queue.pending <==> s.err.Some? && NumRequeues(w.queue, key) < MaxRequeues)
      && (s.err.None? ==> NumRequeues(r.queue, key) == 0)
  {
    var taken := w.queue.(pending := w.queue.pending - {key});
    var s := SyncCluster(w.ctrl, w.store, key, io);
    var h := HandleErr(taken, key, s.err);
    World(s.ctrl, s.store, h.queue)
  }

  /** Worker iterations keep the channel bookkeeping sound and every requeue count within the
      cap. */
  lemma ProcessKeepsInvariants(w: World, key: string, io: SyncInputs)
    requires key in w.queue.pending
    requires Valid(w.ctrl) && RequeuesBounded(w.queue)
    ensures Valid(ProcessNextWorkItem(w, key, io).ctrl)
    ensures RequeuesBounded(ProcessNextWorkItem(w, key, io).queue)
  {
    var taken := w.queue.(pending := w.queue.pending - {key});
    var s := SyncCluster(w.ctrl, w.store, key, io);
    SyncKeepsValid(w.ctrl, w.store, key, io);
    HandleErrKeepsBound(taken, key, s.err);
  }
}

=== FILE: cluster_repository.dfy ===
/** Reads of the cluster declarations on the admin cluster (internal/repository/cluster.go).
    The typed client is a pair of functions: List by field selector and Get by name.
 */
module ClusterRepository {
  import opened Results
  import opened Strings
  import opened Sorting
  import opened ClusterApi

  datatype ClusterClient = ClusterClient(list: string -> Result<seq<Cluster>>, get: string -> Result<Cluster>)

  const NameField: string := "metadata.name="

  /** The field selector for a name filter: none for an empty name. */
  function FieldSelector(name: string): (r: string)
    ensures name == "" ==> r == ""
    ensures name != "" ==> HasPrefix(r, NameField) && r[|NameField|..] == name
  {
    if name != "" then NameField + name else ""
  }

  /** Distinct names give distinct selectors. */
  lemma FieldSelectorInjective(a: string, b: string)
    requires FieldSelector(a) == FieldSelector(b)
    ensures a == b
  {
    if a != "" && b != "" {
      assert a == FieldSelector(a)[|NameField|..];
    }
  }

  function ProviderOf(c: Cluster): string
  {
    c.status.provider
  }

  /** List: the declarations the field selector returns; with a provider, only those whose
      provider is exactly that text, in their order. */
  function List(client: ClusterClient, name: string, provider: string): (r: Result<seq<Cluster>>)
    ensures client.list(FieldSelector(name)).Err? ==> r == Err(client.list(FieldSelector(name)).error)
    ensures client.list(FieldSelector(name)).Ok? ==> r.Ok?
    ensures r.Ok? && provider == "" ==> r.value == client.list(FieldSelector(name)).value
    ensures r.Ok? ==> forall i :: 0 <= i < |r.value| ==> r.value[i] in client.list(FieldSelector(name)).value
    ensures r.Ok? && provider != "" ==>
      var listed := client.list(FieldSelector(name)).value;
      && (forall i :: 0 <= i < |r.value| ==> r.value[i].status.provider == provider && r.value[i] in listed)
      && (forall i :: 0 <= i < |listed| && listed[i].status.provider == provider ==> listed[i] in r.value)
      && r.value == WithKey(listed, ProviderOf, provider)
  {
    var listed :- client.list(FieldSelector(name));
    if provider != "" then
      WithKeyMembers(listed, ProviderOf, provider);
      Ok(WithKey(listed, ProviderOf, provider))
    else Ok(listed)
  }

  /** Get: the client's answer for that name. */
  function Get(client: ClusterClient, name: string): (r: Result<Cluster>)
    ensures r == client.get(name)
  {
    client.get(name)
  }
}

=== FILE: cluster_resource.dfy ===
/** The per-cluster resource record and the routine that builds one from a credential blob
    (pkg/kubernetes/clusterresource). Every remote step the build takes is an input: a
    `Connection` says how parsing, client construction, the version probe and the initial
    cache sync turn out for the blob in question.
 */
module ClusterResource {
  import opened Results
  import opened KubeObjects

  /** The identity of a record's stop channel. Closing is tracked by whoever owns the set of
      closed channels (the controller). */
  type StopId = nat

  /** Opaque handles to the rest config and the typed clientset of one cluster. */
  datatype RestConfig = RestConfig(id: nat)
  datatype ClientSet = ClientSet(id: nat)

  datatype Record = Record(
    kubeConfig: string,
    serverVersion: string,
    restConfig: RestConfig,
    clientSet: ClientSet,
    caches: Caches,
    stopCh: StopId)

  /** The shared map from cluster name to record. */
  type Registry = map<string, Record>

  /** NewClusterResources: the registry starts empty. */
  function NewClusterResources(): (r: Registry)
    ensures forall name :: name !in r
  {
    map[]
  }

  /** How each remote step of a build turns out for one credential blob. */
  datatype Connection = Connection(
    parse: Outcome,                 // clientcmd.NewClientConfigFromBytes
    restConfig: Result<RestConfig>, // clientConfig.ClientConfig()
    clientSet: Result<ClientSet>,   // kubernetes.NewForConfig
    gitVersion: Result<string>,     // clientSet.ServerVersion().GitVersion
    caches: Caches)                 // what the informers hold once synced

  /** The steps before the stop channel is made all succeed. */
  predicate Connected(conn: Connection)
  {
    conn.parse.Pass? && conn.restConfig.Ok? && conn.clientSet.Ok? && conn.gitVersion.Ok?
  }

  /** The error of the first failing step before the stop channel is made. */
  function FirstFailure(conn: Connection): Error
    requires !Connected(conn)
  {
    if conn.parse.Fail? then conn.parse.error
    else if conn.restConfig.Err? then conn.restConfig.error
    else if conn.clientSet.Err? then conn.clientSet.error
    else conn.gitVersion.error
  }

  /** The record, or the error, and whether a stop channel was made on the way. */
  datatype BuildResult = BuildResult(record: Result<Record>, stopCreated: bool)

  /** BuildClusterResource: the four connection steps in order, each failure returned as is and
      before any stop channel exists; then a new stop channel `newStop`, the informers, and
      the wait for sync. That wait can fail only once its stop channel is closed, and nothing
      closes the fresh one, so a build that returns has synced caches. */
  function BuildClusterResource(kubeConfig: string, conn: Connection, newStop: StopId): (r: BuildResult)
    ensures r.stopCreated <==> Connected(conn)
    ensures !Connected(conn) ==> r.record == Err(FirstFailure(conn))
    ensures r.record.Ok? <==> Connected(conn)
    ensures r.record.Ok? ==>
      && r.record.value.kubeConfig == kubeConfig
      && r.record.value.serverVersion == conn.gitVersion.value
      && r.record.value.restConfig == conn.restConfig.value
      && r.record.value.clientSet == conn.clientSet.value
      && r.record.value.caches == conn.caches
      && r.record.value.stopCh == newStop
  {
    if conn.parse.Fail? then BuildResult(Err(conn.parse.error), false)
    else if conn.restConfig.Err? then BuildResult(Err(conn.restConfig.error), false)
    else if conn.clientSet.Err? then BuildResult(Err(conn.clientSet.error), false)
    else if conn.gitVersion.Err? then BuildResult(Err(conn.gitVersion.error), false)
    else
      var rec := Record(kubeConfig, conn.gitVersion.value, conn.restConfig.value,
                        conn.clientSet.value, conn.caches, newStop);
      BuildResult(Ok(rec), true)
  }
}

=== FILE: cluster_service.dfy ===
/** The cluster service (internal/service/cluster.go): paged listing of the declarations and
    Get.
 */
module ClusterService {
  import opened Results
  import opened Sorting
  import opened ClusterApi
  import opened Pagination
  import opened PageData
  import ClusterRepository

  function ClusterName(c: Cluster): string
  {
    c.name
  }

  /** List: the repository's declarations, filtered by name and provider, sorted stably by
      name and cut to the requested page. */
  function List(client: ClusterRepository.ClusterClient, params: PageParams, name: string, provider: string)
    : (r: ListOutcome<Cluster>)
    ensures IsPageOf(r, ClusterRepository.List(client, name, provider), ClusterName, params)
    ensures client.list(ClusterRepository.FieldSelector(name)).Err? ==>
      r == Failed(client.list(ClusterRepository.FieldSelector(name)).error)
    ensures r.Paged? ==>
      && client.list(ClusterRepository.FieldSelector(name)).Ok?
      && SortedBy(r.data.items, ClusterName)
      && (params.limit > 0 ==> |r.data.items| <= params.limit)
      && (forall i :: 0 <= i < |r.data.items| ==> r.data.items[i] in client.list(ClusterRepository.FieldSelector(name)).value)
      && (provider != "" ==> forall i :: 0 <= i < |r.data.items| ==> r.data.items[i].status.provider == provider)
  {
    var listed := ClusterRepository.List(client, name, provider);
    var r := ListPage(listed, ClusterName, params);
    if r.Paged? then
      PagedFromListed(listed.value, ClusterName, params);
      PageFromClient(r.data.items, listed.value, client.list(ClusterRepository.FieldSelector(name)).value, provider);
      r
    else r
  }

  lemma PageFromClient(items: seq<Cluster>, filtered: seq<Cluster>, all: seq<Cluster>, provider: string)
    requires forall i :: 0 <= i < |items| ==> items[i] in filtered
    requires forall i :: 0 <= i < |filtered| ==> filtered[i] in all
    requires provider != "" ==> forall i :: 0 <= i < |filtered| ==> filtered[i].status.provider == provider
    ensures forall i :: 0 <= i < |items| ==> items[i] in all
    ensures provider != "" ==> forall i :: 0 <= i < |items| ==> items[i].status.provider == provider
  {
    forall i | 0 <= i < |items|
      ensures items[i] in all && (provider != "" ==> items[i].status.provider == provider)
    {
      var j :| 0 <= j < |filtered| && filtered[j] == items[i];
    }
  }

  /** Get: the client's answer for that name. */
  function Get(client: ClusterRepository.ClusterClient, name: string): (r: Result<Cluster>)
    ensures r == client.get(name)
  {
    ClusterRepository.Get(client, name)
  }
}

=== FILE: database_config.dfy ===
/** The MySQL data source name built from the database settings (pkg/database/config.go). The
    fields are pasted in without escaping.
 */
module DatabaseConfig {
  import opened Results
  import opened Strings

  /** The connection settings; the two connection-lifetime durations play no part in the URL. */
  datatype Config = Config(host: string, port: string, username: string, password: string, dbName: string)

  const Options: string := "?charset=utf8mb4&parseTime=True&loc=Local"

  /** ConnectionURL: `user:password@tcp(host:port)/db` followed by the fixed options. */
  function ConnectionURL(c: Config): (r: string)
    ensures HasSuffix(r, Options)
    ensures HasPrefix(r, c.username + ":" + c.password + "@tcp(")
  {
    var head := c.username + ":" + c.password + "@tcp(";
    var r := head + c.host + ":" + c.port + ")/" + c.dbName + Options;
    assert r == head + (c.host + ":" + c.port + ")/" + c.dbName + Options);
    assert r[..|head|] == head;
    r
  }

  /** The text before the first `c` and the text after it, if `c` occurs. */
  function Cut(s: string, c: char): (r: Option<(string, string)>)
    ensures r.None? <==> c !in s
    ensures r.Some? ==> c !in r.value.0 && s == r.value.0 + [c] + r.value.1
  {
    var i := IndexOf(s, c);
    if i == |s| then None
    else
      assert s == s[..i] + [c] + s[i + 1..];
      Some((s[..i], s[i + 1..]))
  }

  lemma CutJoin(a: string, c: char, b: string)
    requires c !in a
    ensures Cut(a + [c] + b, c) == Some((a, b))
  {
    IndexOfAfter(a, c, b);
    var s := a + [c] + b;
    assert s[..|a|] == a && s[|a| + 1..] == b;
  }

  /** The database name: the text before the '?' that starts the fixed options. */
  function ParseDb(s: string): Option<string>
  {
    match Cut(s, '?')
    case None => None
    case Some((db, rest)) => if rest == Options[1..] then Some(db) else None
  }

  /** Port and database name, after the host's ':'. */
  function ParsePort(s: string): Option<(string, string)>
  {
    match Cut(s, ')')
    case None => None
    case Some((port, rest)) =>
      if !HasPrefix(rest, "/") then None
      else
        match ParseDb(rest[1..])
        case None => None
        case Some(db) => Some((port, db))
  }

  /** Host, port and database name, after the '@'. */
  function ParseAddress(s: string): Option<(string, string, string)>
  {
    if !HasPrefix(s, "tcp(") then None
    else
      match Cut(s[4..], ':')
      case None => None
      case Some((host, rest)) =>
        match ParsePort(rest)
        case None => None
        case Some((port, db)) => Some((host, port, db))
  }

  /** Reads the settings back from a data source name, splitting each field at the first
      delimiter that follows it. */
  function Parse(s: string): Option<Config>
  {
    match Cut(s, ':')
    case None => None
    case Some((user, r1)) =>
      match Cut(r1, '@')
      case None => None
      case Some((pass, r2)) =>
        match ParseAddress(r2)
        case None => None
        case Some((host, port, db)) => Some(Config(host, port, user, pass, db))
  }

  /** No field holds the delimiter that ends it. */
  predicate Delimitable(c: Config)
  {
    ':' !in c.username && '@' !in c.password && ':' !in c.host && ')' !in c.port && '?' !in c.dbName
  }

  lemma ParseDbJoin(db: string)
    requires '?' !in db
    ensures ParseDb(db + Options) == Some(db)
  {
    assert Options == ['?'] + Options[1..];
    assert db + Options == db + ['?'] + Options[1..];
    CutJoin(db, '?', Options[1..]);
  }

  lemma ParsePortJoin(port: string, db: string)
    requires ')' !in port && '?' !in db
    ensures ParsePort(port + ")/" + db + Options) == Some((port, db))
  {
    var tail := "/" + (db + Options);
    assert port + ")/" + db + Options == port + [')'] + tail;
    CutJoin(port, ')', tail);
    assert tail[1..] == db + Options;
    ParseDbJoin(db);
  }

  lemma ParseAddressJoin(host: string, port: string, db: string)
    requires ':' !in host && ')' !in port && '?' !in db
    ensures ParseAddress("tcp(" + host + ":" + port + ")/" + db + Options) == Some((host, port, db))
  {
    var tail := port + ")/" + db + Options;
    var rest := host + [':'] + tail;
    var s := "tcp(" + host + ":" + port + ")/" + db + Options;
    assert s == "tcp(" + rest;
    assert s[..4] == "tcp(" && s[4..] == rest;
    CutJoin(host, ':', tail);
    ParsePortJoin(port, db);
  }

  lemma ParseJoin(user: string, pass: string, address: string)
    requires ':' !in user && '@' !in pass
    ensures ParseAddress(address).Some? ==>
      var (host, port, db) := ParseAddress(address).value;
      Parse(user + [':'] + (pass + ['@'] + address)) == Some(Config(host, port, user, pass, db))
  {
    CutJoin(user, ':', pass + ['@'] + address);
    CutJoin(pass, '@', address);
  }

  /** Settings whose fields avoid their delimiters can be read back from the URL. */
  lemma ParseConnectionURL(c: Config)
    requires Delimitable(c)
    ensures Parse(ConnectionURL(c)) == Some(c)
  {
    var address := "tcp(" + c.host + ":" + c.port + ")/" + c.dbName + Options;
    assert ConnectionURL(c) == c.username + [':'] + (c.password + ['@'] + address);
    ParseAddressJoin(c.host, c.port, c.dbName);
    ParseJoin(c.username, c.password, address);
  }

  /** Without escaping, a ':' moved between user name and password goes unnoticed: two
      different settings give the same URL. */
  lemma ConnectionURLNotInjective()
    ensures ConnectionURL(Config("db", "3306", "app", "se:cret", "zeus"))
         == ConnectionURL(Config("db", "3306", "app:se", "cret", "zeus"))
  {
  }
}

=== FILE: decimal.dfy ===
/** Decimal conversion as performed by Go's strconv.Atoi and strconv.Itoa for a 64-bit `int`. */
module Decimal {
  import opened Results

  const IntMin: int := -0x8000_0000_0000_0000
  const IntMax: int := 0x7fff_ffff_ffff_ffff

  predicate IsDigit(c: char)
  {
    '0' <= c <= '9'
  }

  predicate AllDigits(s: string)
  {
    forall i :: 0 <= i < |s| ==> IsDigit(s[i])
  }

  function DigitValue(c: char): nat
    requires IsDigit(c)
  {
    (c as int) - ('0' as int)
  }

  /** The value of a run of decimal digits, most significant first. */
  function DigitsValue(s: string): nat
    requires AllDigits(s)
  {
    if |s| == 0 then 0 else DigitsValue(s[..|s| - 1]) * 10 + DigitValue(s[|s| - 1])
  }

  /** The text after an optional leading sign. */
  function Unsigned(s: string): string
  {
    if |s| > 0 && (s[0] == '-' || s[0] == '+') then s[1..] else s
  }

  predicate Negative(s: string)
  {
    |s| > 0 && s[0] == '-'
  }

  /** An optional sign followed by at least one decimal digit. */
  predicate WellFormed(s: string)
  {
    |Unsigned(s)| > 0 && AllDigits(Unsigned(s))
  }

  /** The mathematical value a well-formed literal denotes, before any range check. */
  function LiteralValue(s: string): int
    requires WellFormed(s)
  {
    var v: int := DigitsValue(Unsigned(s));
    if Negative(s) then -v else v
  }

  const MaxUint64: nat := 0xffff_ffff_ffff_ffff

  /** The run of decimal digits that starts the text. */
  function LeadingDigits(s: string): (r: string)
    ensures |r| <= |s| && r == s[..|r|] && AllDigits(r)
    ensures |r| < |s| ==> !IsDigit(s[|r|])
  {
    if |s| == 0 || !IsDigit(s[0]) then []
    else
      var rest := LeadingDigits(s[1..]);
      assert s == [s[0]] + s[1..];
      [s[0]] + rest
  }

  /** The digit loop of strconv.ParseUint in base 10, from position `i` with `n` accumulated:
      a character that is not a digit is a syntax error, and a digit that would take the value
      past the largest uint64 is a range error, whichever the scan meets first. */
  function ScanDigits(u: string, i: nat, n: nat, text: string): Result<nat>
    requires i <= |u|
    decreases |u| - i
  {
    if i == |u| then Ok(n)
    else if !IsDigit(u[i]) then Err(SyntaxError(text))
    else if n * 10 + DigitValue(u[i]) > MaxUint64 then Err(RangeError(text))
    else ScanDigits(u, i + 1, n * 10 + DigitValue(u[i]), text)
  }

  /** A prefix of a digit run never has a larger value than the run. */
  lemma {:induction false} DigitsValuePrefix(s: string, j: nat)
    requires AllDigits(s) && j <= |s|
    ensures DigitsValue(s[..j]) <= DigitsValue(s)
  {
    if j < |s| {
      var t := s[..|s| - 1];
      assert s[..j] == t[..j];
      DigitsValuePrefix(t, j);
    } else {
      assert s[..j] == s;
    }
  }

  /** The scan ends in a range error exactly when the leading digit run is worth more than the
      largest uint64; otherwise in a syntax error when a non-digit follows the run, and with
      the run's value when the run is the whole text. */
  lemma {:induction false} ScanDigitsMeaning(u: string, i: nat, text: string)
    requires i <= |LeadingDigits(u)|
    requires DigitsValue(u[..i]) <= MaxUint64
    ensures var run := LeadingDigits(u);
      ScanDigits(u, i, DigitsValue(u[..i]), text)
      == if DigitsValue(run) > MaxUint64 then Err(RangeError(text))
         else if |run| < |u| then Err(SyntaxError(text))
         else Ok(DigitsValue(u))
    decreases |u| - i
  {
    var run := LeadingDigits(u);
    var n := DigitsValue(u[..i]);
    if i == |u| {
      assert run == u && u[..i] == u;
    } else if !IsDigit(u[i]) {
      assert i == |run|;
      assert u[..i] == run;
    } else {
      assert i < |run|;
      var n' := n * 10 + DigitValue(u[i]);
      assert u[..i + 1][..i] == u[..i];
      assert DigitsValue(u[..i + 1]) == n';
      assert run[..i + 1] == u[..i + 1];
      DigitsValuePrefix(run, i + 1);
      if n' <= MaxUint64 {
        ScanDigitsMeaning(u, i + 1, text);
      }
    }
  }

  /** strconv.Atoi: the sign, then ParseUint's scan of the digits, then the 64-bit `int` range
      check. A malformed text is a syntax error unless the digits before the first bad
      character already overflow uint64, which is a range error. */
  function Atoi(s: string): (r: Result<int>)
    ensures r.Ok? ==> IntMin <= r.value <= IntMax
    ensures r.Ok? <==> WellFormed(s) && IntMin <= LiteralValue(s) <= IntMax
    ensures r.Ok? ==> r.value == LiteralValue(s)
    ensures WellFormed(s) && !(IntMin <= LiteralValue(s) <= IntMax) ==> r == Err(RangeError(s))
    ensures !WellFormed(s) && DigitsValue(LeadingDigits(Unsigned(s))) <= MaxUint64 ==> r == Err(SyntaxError(s))
    ensures DigitsValue(LeadingDigits(Unsigned(s))) > MaxUint64 ==> r == Err(RangeError(s))
  {
    var u := Unsigned(s);
    if |u| == 0 then Err(SyntaxError(s))
    else
      var run := LeadingDigits(u);
      assert |run| == |u| <==> AllDigits(u) by {
        if |run| == |u| { assert run == u; }
      }
      assert u[..0] == [];
      ScanDigitsMeaning(u, 0, s);
      match ScanDigits(u, 0, 0, s)
      case Err(e) =>
        assert WellFormed(s) ==> run == u && DigitsValue(u) > MaxUint64;
        Err(e)
      case Ok(v) =>
        var x: int := if Negative(s) then -(v as int) else v;
        if x < IntMin || x > IntMax then Err(RangeError(s)) else Ok(x)
  }

  /** The leading run of a digit run followed by a bad character is that digit run. */
  lemma {:induction false} LeadingDigitsBefore(run: string, rest: string)
    requires AllDigits(run) && |rest| > 0 && !IsDigit(rest[0])
    ensures LeadingDigits(run + rest) == run
  {
    if |run| == 0 {
      assert run + rest == rest;
    } else {
      assert (run + rest)[0] == run[0] && (run + rest)[1..] == run[1..] + rest;
      LeadingDigitsBefore(run[1..], rest);
      assert run == [run[0]] + run[1..];
    }
  }

  /** A digit run worth more than the largest uint64 followed by any bad character is a range
      error, not a syntax error. */
  lemma OverflowBeforeBadCharacter(run: string, rest: string)
    requires AllDigits(run) && DigitsValue(run) > MaxUint64
    requires |rest| > 0 && !IsDigit(rest[0])
    ensures !WellFormed(run + rest)
    ensures Atoi(run + rest) == Err(RangeError(run + rest))
  {
    var s := run + rest;
    assert |run| > 0;
    assert IsDigit(s[0]) && Unsigned(s) == s;
    LeadingDigitsBefore(run, rest);
    assert !IsDigit(s[|run|]);
  }

  function Digit(d: nat): (c: char)
    requires d < 10
    ensures IsDigit(c) && DigitValue(c) == d
  {
    (('0' as int) + d) as char
  }

  /** The shortest decimal spelling of a natural number. */
  function NatDigits(n: nat): (r: string)
    ensures |r| > 0 && AllDigits(r)
  {
    if n < 10 then [Digit(n)] else NatDigits(n / 10) + [Digit(n % 10)]
  }

  /** strconv.Itoa. */
  function Itoa(n: int): string
  {
    if n < 0 then "-" + NatDigits(-n) else NatDigits(n)
  }

  lemma {:induction false} NatDigitsValue(n: nat)
    ensures DigitsValue(NatDigits(n)) == n
  {
    if n >= 10 {
      var s := NatDigits(n / 10) + [Digit(n % 10)];
      assert s[..|s| - 1] == NatDigits(n / 10);
      NatDigitsValue(n / 10);
    }
  }

  /** Every 64-bit integer survives a round trip through its decimal text. */
  lemma AtoiItoa(n: int)
    requires IntMin <= n <= IntMax
    ensures Atoi(Itoa(n)) == Ok(n)
  {
    var m: nat := if n < 0 then -n else n;
    var digits := NatDigits(m);
    NatDigitsValue(m);
    var s := Itoa(n);
    if n < 0 {
      assert s == "-" + digits;
      assert s[0] == '-' && s[1..] == digits;
      assert Negative(s) && Unsigned(s) == digits;
    } else {
      assert s == digits;
      assert IsDigit(s[0]);
      assert !Negative(s) && Unsigned(s) == digits;
    }
    assert WellFormed(s);
    assert LiteralValue(s) == n;
  }
}

=== FILE: kube_objects.dfy ===
/** The Kubernetes objects the read layer serves, and the informer-backed listers that hold
    them. Only the fields the core reads are kept. Label selectors are uninterpreted: a
    selector is a predicate over an object's labels, and parsing one is a function supplied
    by the caller.
 */
module KubeObjects {
  import opened Results

  type Labels = map<string, string>

  /** A parsed label selector. */
  type Selector = Labels -> bool

  /** labels.Everything(): the selector that matches every object. */
  function Everything(): Selector
  {
    (l: Labels) => true
  }

  /** labels.Parse: the selector a string denotes, or the parse error. */
  type SelectorParser = string -> Result<Selector>

  datatype Pod = Pod(name: string, namespace: string, labels: Labels, podIP: string)

  datatype NodeAddress = NodeAddress(addressType: string, address: string)

  datatype Node = Node(name: string, labels: Labels, addresses: seq<NodeAddress>)

  datatype Namespace = Namespace(name: string, labels: Labels)

  /** The last-synced contents of one informer cache. A cache lister's List may report an
      error alongside its items, so the failure is part of the lister. */
  datatype Lister<T> = Lister(objects: seq<T>, failure: Option<Error>)

  /** What a lister's List returns: the items and the error, as Go's pair. */
  datatype Listing<T> = Listing(items: seq<T>, err: Option<Error>)

  /** The objects whose labels the selector matches, in cache order. */
  function Select<T>(objects: seq<T>, sel: Selector, labelsOf: T -> Labels): (r: seq<T>)
    ensures |r| <= |objects|
    ensures forall i :: 0 <= i < |r| ==> r[i] in objects && sel(labelsOf(r[i]))
    ensures forall i :: 0 <= i < |objects| && sel(labelsOf(objects[i])) ==> objects[i] in r
  {
    if |objects| == 0 then []
    else
      (if sel(labelsOf(objects[0])) then [objects[0]] else []) + Select(objects[1..], sel, labelsOf)
  }

  /** Selecting from a concatenation selects from each part: together with the one-object case
      this fixes the order and the multiplicity of the result. */
  lemma {:induction false} SelectAppend<T>(a: seq<T>, b: seq<T>, sel: Selector, labelsOf: T -> Labels)
    ensures Select(a + b, sel, labelsOf) == Select(a, sel, labelsOf) + Select(b, sel, labelsOf)
  {
    if |a| == 0 {
      assert a + b == b;
    } else {
      assert (a + b)[0] == a[0] && (a + b)[1..] == a[1..] + b;
      SelectAppend(a[1..], b, sel, labelsOf);
    }
  }

  /** Each matching object is kept as many times as it is cached, and no other object is. */
  lemma {:induction false} SelectCount<T>(objects: seq<T>, sel: Selector, labelsOf: T -> Labels, x: T)
    ensures multiset(Select(objects, sel, labelsOf))[x] == if sel(labelsOf(x)) then multiset(objects)[x] else 0
  {
    if |objects| > 0 {
      assert objects == [objects[0]] + objects[1..];
      SelectCount(objects[1..], sel, labelsOf, x);
    }
  }

  /** Selecting from one object keeps it exactly when the selector matches its labels. */
  lemma SelectOne<T>(x: T, sel: Selector, labelsOf: T -> Labels)
    ensures Select([x], sel, labelsOf) == if sel(labelsOf(x)) then [x] else []
  {
    assert [x][1..] == [] && Select([x][1..], sel, labelsOf) == [];
  }

  /** The informer caches of one cluster that the read layer queries. The other five kinds the
      build routine starts (services, config maps, stateful sets, deployments, daemon sets)
      have no reader in the core and are not kept. */
  datatype Caches = Caches(nodes: Lister<Node>, pods: Lister<Pod>, namespaces: Lister<Namespace>)

  function PodName(p: Pod): string { p.name }
  function NodeName(n: Node): string { n.name }
  function NamespaceName(n: Namespace): string { n.name }

  function PodLabels(p: Pod): Labels { p.labels }
  function NodeLabels(n: Node): Labels { n.labels }
  function NamespaceLabels(n: Namespace): Labels { n.labels }

  /** PodLister.List(selector): every namespace. */
  function ListPods(l: Lister<Pod>, sel: Selector): Listing<Pod>
  {
    Listing(Select(l.objects, sel, PodLabels), l.failure)
  }

  function InNamespace(pods: seq<Pod>, namespace: string): (r: seq<Pod>)
    ensures forall p :: p in r <==> p in pods && p.namespace == namespace
  {
    if |pods| == 0 then []
    else
      (if pods[0].namespace == namespace then [pods[0]] else []) + InNamespace(pods[1..], namespace)
  }

  /** Filtering a concatenation filters each part; one pod is kept exactly when it is in the
      namespace. */
  lemma {:induction false} InNamespaceAppend(a: seq<Pod>, b: seq<Pod>, namespace: string)
    ensures InNamespace(a + b, namespace) == InNamespace(a, namespace) + InNamespace(b, namespace)
  {
    if |a| == 0 {
      assert a + b == b;
    } else {
      assert (a + b)[0] == a[0] && (a + b)[1..] == a[1..] + b;
      InNamespaceAppend(a[1..], b, namespace);
    }
  }

  /** Each pod of the namespace is kept as many times as it is listed, and no other pod is. */
  lemma {:induction false} InNamespaceCount(pods: seq<Pod>, namespace: string, p: Pod)
    ensures multiset(InNamespace(pods, namespace))[p] == if p.namespace == namespace then multiset(pods)[p] else 0
  {
    if |pods| > 0 {
      assert pods == [pods[0]] + pods[1..];
      InNamespaceCount(pods[1..], namespace, p);
    }
  }

  /** One pod is kept exactly when it is in the namespace. */
  lemma InNamespaceOne(x: Pod, namespace: string)
    ensures InNamespace([x], namespace) == if x.namespace == namespace then [x] else []
  {
    assert [x][1..] == [] && InNamespace([x][1..], namespace) == [];
  }

  /** PodLister.Pods(namespace).List(selector). */
  function ListPodsIn(l: Lister<Pod>, namespace: string, sel: Selector): Listing<Pod>
  {
    Listing(InNamespace(Select(l.objects, sel, PodLabels), namespace), l.failure)
  }

  /** PodLister.Pods(namespace).Get(name): the cached pod with that key, or NotFound. */
  function GetPod(l: Lister<Pod>, namespace: string, name: string): (r: Result<Pod>)
    ensures r.Ok? ==> r.value in l.objects && r.value.namespace == namespace && r.value.name == name
    ensures r.Err? <==> forall p :: p in l.objects ==> !(p.namespace == namespace && p.name == name)
    ensures r.Err? ==> r == Err(NotFound("pod", name))
    decreases |l.objects|
  {
    if |l.objects| == 0 then Err(NotFound("pod", name))
    else
      var p := l.objects[0];
      if p.namespace == namespace && p.name == name then Ok(p)
      else GetPod(Lister(l.objects[1..], l.failure), namespace, name)
  }

  function ListNodes(l: Lister<Node>, sel: Selector): Listing<Node>
  {
    Listing(Select(l.objects, sel, NodeLabels), l.failure)
  }

  /** NodeLister.Get(name). */
  function GetNode(l: Lister<Node>, name: string): (r: Result<Node>)
    ensures r.Ok? ==> r.value in l.objects && r.value.name == name
    ensures r.Err? <==> forall n :: n in l.objects ==> n.name != name
    ensures r.Err? ==> r == Err(NotFound("node", name))
    decreases |l.objects|
  {
    if |l.objects| == 0 then Err(NotFound("node", name))
    else if l.objects[0].name == name then Ok(l.objects[0])
    else GetNode(Lister(l.objects[1..], l.failure), name)
  }

  function ListNamespaces(l: Lister<Namespace>, sel: Selector): Listing<Namespace>
  {
    Listing(Select(l.objects, sel, NamespaceLabels), l.failure)
  }

  /** NamespaceLister.Get(name). */
  function GetNamespace(l: Lister<Namespace>, name: string): (r: Result<Namespace>)
    ensures r.Ok? ==> r.value in l.objects && r.value.name == name
    ensures r.Err? <==> forall n :: n in l.objects ==> n.name != name
    ensures r.Err? ==> r == Err(NotFound("namespace", name))
    decreases |l.objects|
  {
    if |l.objects| == 0 then Err(NotFound("namespace", name))
    else if l.objects[0].name == name then Ok(l.objects[0])
    else GetNamespace(Lister(l.objects[1..], l.failure), name)
  }

  /** A Go `(items, err)` pair read as a single result, the way the services read it. */
  function AsResult<T>(l: Listing<T>): (r: Result<seq<T>>)
  {
    match l.err
    case Some(e) => Err(e)
    case None => Ok(l.items)
  }
}

=== FILE: namespace_repository.dfy ===
/** Namespace reads over the cluster registry (internal/repository/namespace.go). */
module NamespaceRepository {
  import opened Results
  import opened KubeObjects
  import opened ClusterResource

  /** List: the selector's matches in the cluster's namespace cache, with the lister's error;
      a bad selector is reported before a missing cluster. */
  function List(registry: Registry, parse: SelectorParser, clusterName: string, labelSelector: string): (r: Listing<Namespace>)
    ensures parse(labelSelector).Err? ==> r == Listing([], Some(parse(labelSelector).error))
    ensures parse(labelSelector).Ok? && clusterName !in registry ==> r == Listing([], Some(ClusterNotExists))
    ensures parse(labelSelector).Ok? && clusterName in registry ==>
      var namespaces := registry[clusterName].caches.namespaces;
      && r.err == namespaces.failure
      && (forall n :: n in r.items <==> n in namespaces.objects && parse(labelSelector).value(n.labels))
      && forall n :: multiset(r.items)[n] == if parse(labelSelector).value(n.labels) then multiset(namespaces.objects)[n] else 0
  {
    match parse(labelSelector)
    case Err(e) => Listing([], Some(e))
    case Ok(sel) =>
      if clusterName !in registry then Listing([], Some(ClusterNotExists))
      else
        var namespaces := registry[clusterName].caches.namespaces;
        forall n: Namespace
          ensures multiset(Select(namespaces.objects, sel, NamespaceLabels))[n]
               == if sel(n.labels) then multiset(namespaces.objects)[n] else 0
        {
          SelectCount(namespaces.objects, sel, NamespaceLabels, n);
        }
        ListNamespaces(namespaces, sel)
  }

  /** Get: the namespace with that name in the cluster's cache. */
  function Get(registry: Registry, clusterName: string, name: string): (r: Result<Namespace>)
    ensures clusterName !in registry ==> r == Err(ClusterNotExists)
    ensures r.Ok? ==>
      clusterName in registry && r.value in registry[clusterName].caches.namespaces.objects && r.value.name == name
    ensures clusterName in registry && r.Err? ==>
      r == Err(NotFound("namespace", name))
      && forall n :: n in registry[clusterName].caches.namespaces.objects ==> n.name != name
  {
    if clusterName !in registry then Err(ClusterNotExists)
    else GetNamespace(registry[clusterName].caches.namespaces, name)
  }
}

=== FILE: namespace_service.dfy ===
/** The namespace service (internal/service/namespace.go): paged listing over the namespace
    repository and Get.
 */
module NamespaceService {
  import opened Results
  import opened Sorting
  import opened KubeObjects
  import opened ClusterResource
  import opened Pagination
  import opened PageData
  import NamespaceRepository

  /** List: the repository's namespaces sorted stably by name and cut to the requested page. */
  function List(registry: Registry, parse: SelectorParser, clusterName: string, labelSelector: string,
                params: PageParams): (r: ListOutcome<Namespace>)
    ensures IsPageOf(r, AsResult(NamespaceRepository.List(registry, parse, clusterName, labelSelector)), NamespaceName, params)
    ensures parse(labelSelector).Err? ==> r == Failed(parse(labelSelector).error)
    ensures parse(labelSelector).Ok? && clusterName !in registry ==> r == Failed(ClusterNotExists)
    ensures r.Paged? ==>
      && clusterName in registry
      && SortedBy(r.data.items, NamespaceName)
      && (params.limit > 0 ==> |r.data.items| <= params.limit)
      && (forall i :: 0 <= i < |r.data.items| ==>
            r.data.items[i] in registry[clusterName].caches.namespaces.objects
            && parse(labelSelector).value(r.data.items[i].labels))
  {
    var listed := AsResult(NamespaceRepository.List(registry, parse, clusterName, labelSelector));
    var r := ListPage(listed, NamespaceName, params);
    if r.Paged? then
      PagedFromListed(listed.value, NamespaceName, params);
      r
    else r
  }

  /** Get: the namespace with that name in the cluster's cache. */
  function Get(registry: Registry, clusterName: string, name: string): (r: Result<Namespace>)
    ensures clusterName !in registry ==> r == Err(ClusterNotExists)
    ensures r.Ok? ==>
      clusterName in registry && r.value in registry[clusterName].caches.namespaces.objects && r.value.name == name
    ensures clusterName in registry ==>
      (r.Err? <==> forall n :: n in registry[clusterName].caches.namespaces.objects ==> n.name != name)
    ensures clusterName in registry && r.Err? ==> r == Err(NotFound("namespace", name))
  {
    NamespaceRepository.Get(registry, clusterName, name)
  }
}

=== FILE: node_repository.dfy ===
/** Node reads over the cluster registry (internal/repository/node.go). */
module NodeRepository {
  import opened Results
  import opened Strings
  import opened KubeObjects
  import opened ClusterResource

  const InternalIP: string := "InternalIP"

  /** An address of type InternalIP whose text contains `ip`. */
  predicate MatchesInternalIP(a: NodeAddress, ip: string)
  {
    a.addressType == InternalIP && Contains(a.address, ip)
  }

  /** Some address of the node matches. */
  predicate HasInternalIP(n: Node, ip: string)
  {
    exists i :: 0 <= i < |n.addresses| && MatchesInternalIP(n.addresses[i], ip)
  }

  /** How many of the addresses match. */
  function MatchCount(addrs: seq<NodeAddress>, ip: string): (k: nat)
    ensures k <= |addrs|
    ensures k > 0 <==> exists i :: 0 <= i < |addrs| && MatchesInternalIP(addrs[i], ip)
  {
    if |addrs| == 0 then 0
    else
      var k := MatchCount(addrs[1..], ip);
      assert forall i :: 0 < i < |addrs| ==> addrs[i] == addrs[1..][i - 1];
      (if MatchesInternalIP(addrs[0], ip) then 1 else 0) + k
  }

  /** `k` copies of `n`. */
  function Repeat(n: Node, k: nat): (r: seq<Node>)
    ensures |r| == k && forall i :: 0 <= i < k ==> r[i] == n
    ensures forall m :: multiset(r)[m] == if m == n then k else 0
  {
    if k == 0 then [] else [n] + Repeat(n, k - 1)
  }

  /** The total number of matching addresses over a list of nodes. */
  function TotalMatches(nodes: seq<Node>, ip: string): nat
  {
    if |nodes| == 0 then 0 else MatchCount(nodes[0].addresses, ip) + TotalMatches(nodes[1..], ip)
  }

  /** The node-IP filter: the inner loop over addresses appends the node once per matching
      InternalIP address, in node order. */
  function WithNodeIP(nodes: seq<Node>, ip: string): (r: seq<Node>)
    ensures forall n :: n in r <==> n in nodes && HasInternalIP(n, ip)
  {
    if |nodes| == 0 then []
    else Repeat(nodes[0], MatchCount(nodes[0].addresses, ip)) + WithNodeIP(nodes[1..], ip)
  }

  /** A node is listed once per matching address for each time it was listed. */
  lemma {:induction false} WithNodeIPCount(nodes: seq<Node>, ip: string, n: Node)
    ensures multiset(WithNodeIP(nodes, ip))[n] == multiset(nodes)[n] * MatchCount(n.addresses, ip)
  {
    if |nodes| > 0 {
      var x, tail := nodes[0], nodes[1..];
      var c := MatchCount(n.addresses, ip);
      var here: nat := if n == x then 1 else 0;
      var before := multiset(tail)[n];
      assert nodes == [x] + tail;
      assert multiset(nodes)[n] == here + before;
      assert multiset(Repeat(x, MatchCount(x.addresses, ip)))[n] == here * c;
      WithNodeIPCount(tail, ip, n);
      MulDistributes(here, before, c);
    }
  }

  lemma MulDistributes(a: nat, b: nat, c: nat)
    ensures (a + b) * c == a * c + b * c
  {
  }

  /** Filtering a concatenation filters each part; one node becomes as many copies as it has
      matching addresses. */
  lemma {:induction false} WithNodeIPAppend(a: seq<Node>, b: seq<Node>, ip: string)
    ensures WithNodeIP(a + b, ip) == WithNodeIP(a, ip) + WithNodeIP(b, ip)
  {
    if |a| == 0 {
      assert a + b == b;
    } else {
      assert (a + b)[0] == a[0] && (a + b)[1..] == a[1..] + b;
      WithNodeIPAppend(a[1..], b, ip);
    }
  }

  /** One node becomes as many copies as it has matching addresses. */
  lemma WithNodeIPOne(x: Node, ip: string)
    ensures WithNodeIP([x], ip) == Repeat(x, MatchCount(x.addresses, ip))
  {
    assert [x][1..] == [] && WithNodeIP([x][1..], ip) == [];
  }

  /** A node is listed as many times as it has matching addresses, so the length is the number
      of matches. */
  lemma {:induction false} WithNodeIPLength(nodes: seq<Node>, ip: string)
    ensures |WithNodeIP(nodes, ip)| == TotalMatches(nodes, ip)
  {
    if |nodes| > 0 {
      WithNodeIPLength(nodes[1..], ip);
    }
  }

  /** A node with two matching InternalIP addresses shows up twice; an ExternalIP that
      contains the text does not count. */
  lemma DuplicatesPerAddress(name: string, labels: Labels)
    ensures var n := Node(name, labels, [NodeAddress(InternalIP, "10.0.0.1"), NodeAddress(InternalIP, "10.0.0.12"),
                                         NodeAddress("ExternalIP", "10.0.0.1")]);
      WithNodeIP([n], "10.0.0.1") == [n, n]
  {
    var n := Node(name, labels, [NodeAddress(InternalIP, "10.0.0.1"), NodeAddress(InternalIP, "10.0.0.12"),
                                 NodeAddress("ExternalIP", "10.0.0.1")]);
    assert HasPrefix("10.0.0.1", "10.0.0.1");
    assert HasPrefix("10.0.0.12", "10.0.0.1");
    assert MatchCount(n.addresses, "10.0.0.1") == 2;
  }

  /** List: with a node IP, the selector matches filtered by InternalIP (the lister's error is
      dropped); otherwise the lister output and its error. */
  function List(registry: Registry, parse: SelectorParser, clusterName: string, labelSelector: string,
                nodeIP: string): (r: Listing<Node>)
    ensures parse(labelSelector).Err? ==> r == Listing([], Some(parse(labelSelector).error))
    ensures parse(labelSelector).Ok? && clusterName !in registry ==> r == Listing([], Some(ClusterNotExists))
    ensures parse(labelSelector).Ok? && clusterName in registry ==>
      var nodes := registry[clusterName].caches.nodes;
      var sel := parse(labelSelector).value;
      && (nodeIP != "" ==>
            r.err.None?
            && (forall n :: n in r.items <==> n in nodes.objects && sel(n.labels) && HasInternalIP(n, nodeIP))
            && forall n :: multiset(r.items)[n] ==
                 (if sel(n.labels) then multiset(nodes.objects)[n] else 0) * MatchCount(n.addresses, nodeIP))
      && (nodeIP == "" ==>
            && r.err == nodes.failure
            && (forall n :: n in r.items <==> n in nodes.objects && sel(n.labels))
            && forall n :: multiset(r.items)[n] == if sel(n.labels) then multiset(nodes.objects)[n] else 0)
  {
    match parse(labelSelector)
    case Err(e) => Listing([], Some(e))
    case Ok(sel) =>
      if clusterName !in registry then Listing([], Some(ClusterNotExists))
      else
        var nodes := registry[clusterName].caches.nodes;
        var all := ListNodes(nodes, sel);
        forall n: Node
          ensures multiset(all.items)[n] == if sel(n.labels) then multiset(nodes.objects)[n] else 0
        {
          SelectCount(nodes.objects, sel, NodeLabels, n);
        }
        if nodeIP != "" then
          forall n: Node
            ensures multiset(WithNodeIP(all.items, nodeIP))[n] == multiset(all.items)[n] * MatchCount(n.addresses, nodeIP)
          {
            WithNodeIPCount(all.items, nodeIP, n);
          }
          Listing(WithNodeIP(all.items, nodeIP), None)
        else all
  }

  /** Get: the node with that name in the cluster's cache. */
  function Get(registry: Registry, clusterName: string, name: string): (r: Result<Node>)
    ensures clusterName !in registry ==> r == Err(ClusterNotExists)
    ensures r.Ok? ==>
      clusterName in registry && r.value in registry[clusterName].caches.nodes.objects && r.value.name == name
    ensures clusterName in registry && r.Err? ==>
      r == Err(NotFound("node", name)) && forall n :: n in registry[clusterName].caches.nodes.objects ==> n.name != name
  {
    if clusterName !in registry then Err(ClusterNotExists)
    else GetNode(registry[clusterName].caches.nodes, name)
  }
}

=== FILE: node_service.dfy ===
/** The node service (internal/service/node.go): paged listing over the node repository and
    Get.
 */
module NodeService {
  import opened Results
  import opened Sorting
  import opened KubeObjects
  import opened ClusterResource
  import opened Pagination
  import opened PageData
  import NodeRepository

  /** List: the repository's nodes sorted stably by name and cut to the requested page. */
  function List(registry: Registry, parse: SelectorParser, clusterName: string, labelSelector: string,
                nodeIP: string, params: PageParams): (r: ListOutcome<Node>)
    ensures IsPageOf(r, AsResult(NodeRepository.List(registry, parse, clusterName, labelSelector, nodeIP)), NodeName, params)
    ensures parse(labelSelector).Err? ==> r == Failed(parse(labelSelector).error)
    ensures parse(labelSelector).Ok? && clusterName !in registry ==> r == Failed(ClusterNotExists)
    ensures r.Paged? ==>
      && clusterName in registry
      && SortedBy(r.data.items, NodeName)
      && (params.limit > 0 ==> |r.data.items| <= params.limit)
      && (forall i :: 0 <= i < |r.data.items| ==> r.data.items[i] in registry[clusterName].caches.nodes.objects)
      && (nodeIP != "" ==> forall i :: 0 <= i < |r.data.items| ==> NodeRepository.HasInternalIP(r.data.items[i], nodeIP))
  {
    var listed := AsResult(NodeRepository.List(registry, parse, clusterName, labelSelector, nodeIP));
    var r := ListPage(listed, NodeName, params);
    if r.Paged? then
      PagedFromListed(listed.value, NodeName, params);
      r
    else r
  }

  /** With a node IP, the paginator's total counts matching addresses, not nodes: a node with
      two matching InternalIP addresses adds two. */
  lemma PageTotalCountsAddresses(registry: Registry, parse: SelectorParser, clusterName: string, labelSelector: string,
                                 nodeIP: string, params: PageParams)
    requires nodeIP != ""
    ensures var r := List(registry, parse, clusterName, labelSelector, nodeIP, params);
      r.Paged? ==>
        r.data.paginator.total
        == NodeRepository.TotalMatches(Select(registry[clusterName].caches.nodes.objects, parse(labelSelector).value, NodeLabels), nodeIP)
  {
    var r := List(registry, parse, clusterName, labelSelector, nodeIP, params);
    if r.Paged? {
      NodeRepository.WithNodeIPLength(Select(registry[clusterName].caches.nodes.objects, parse(labelSelector).value, NodeLabels), nodeIP);
    }
  }

  /** Get: the node with that name in the cluster's cache. */
  function Get(registry: Registry, clusterName: string, name: string): (r: Result<Node>)
    ensures clusterName !in registry ==> r == Err(ClusterNotExists)
    ensures r.Ok? ==>
      clusterName in registry && r.value in registry[clusterName].caches.nodes.objects && r.value.name == name
    ensures clusterName in registry ==>
      (r.Err? <==> forall n :: n in registry[clusterName].caches.nodes.objects ==> n.name != name)
    ensures clusterName in registry && r.Err? ==> r == Err(NotFound("node", name))
  {
    NodeRepository.Get(registry, clusterName, name)
  }
}

=== FILE: page_data.dfy ===
/** The list pipeline the four services share: take the repository's result, sort it stably by
    name, ask Paginate for the window and slice it out.

    Go's `items[offset:end]` panics unless `0 <= offset <= end <= cap(items)`, and Paginate
    divides by the limit, so a zero limit panics too; both are the `Panicked` outcome here.
    `end` never exceeds the length, so the capacity plays no part.
 */
module PageData {
  import opened Results
  import opened Strings
  import opened Sorting
  import opened Pagination

  datatype PageData<T> = PageData(items: seq<T>, paginator: Paginator)

  datatype ListOutcome<T> = Paged(data: PageData<T>) | Failed(error: Error) | Panicked

  /** `r` is the page a service answers for the repository result `listed`: the repository's
      error unchanged; a panic exactly when the limit is zero or the window is inverted; else
      the paginator Paginate gives for the listing's length and the window of the listing
      sorted stably by `key`. */
  ghost predicate IsPageOf<T>(r: ListOutcome<T>, listed: Result<seq<T>>, key: T -> string, params: PageParams)
  {
    && (listed.Err? ==> r == Failed(listed.error))
    && (r.Failed? ==> listed.Err?)
    && (r.Panicked? <==>
          listed.Ok? && (params.limit == 0 || !(0 <= Paginate(|listed.value|, params).offset <= Paginate(|listed.value|, params).end)))
    && (r.Paged? ==>
          && listed.Ok? && params.limit != 0
          && var w := Paginate(|listed.value|, params);
          && r.data.paginator == w.paginator
          && 0 <= w.offset <= w.end <= |listed.value|
          && |r.data.items| == w.end - w.offset
          && (forall i :: 0 <= i < |r.data.items| ==> r.data.items[i] == SortByName(listed.value, key)[w.offset + i]))
  }

  /** A service's List after the repository call. */
  function ListPage<T>(listed: Result<seq<T>>, key: T -> string, params: PageParams): (r: ListOutcome<T>)
    ensures IsPageOf(r, listed, key, params)
    ensures r.Paged? ==> SortedBy(r.data.items, key)
    ensures r.Paged? && params.limit > 0 ==> |r.data.items| <= params.limit
  {
    match listed
    case Err(e) => Failed(e)
    case Ok(items) =>
      if params.limit == 0 then Panicked
      else
        var w := Paginate(|items|, params);
        if 0 <= w.offset <= w.end then
          SortedWindow(SortByName(items, key), |items|, key, params);
          Paged(PageData(SortByName(items, key)[w.offset..w.end], w.paginator))
        else Panicked
  }

  /** The facts about a valid window cut from a sorted list of `total` items. */
  lemma SortedWindow<T>(sorted: seq<T>, total: nat, key: T -> string, params: PageParams)
    requires |sorted| == total && SortedBy(sorted, key)
    requires params.limit != 0
    requires 0 <= Paginate(total, params).offset <= Paginate(total, params).end
    ensures var w := Paginate(total, params);
      && w.end <= |sorted|
      && var page := sorted[w.offset..w.end];
      && |page| == w.end - w.offset
      && (forall i :: 0 <= i < |page| ==> page[i] == sorted[w.offset + i])
      && SortedBy(page, key)
      && (params.limit > 0 ==> |page| <= params.limit)
  {
    var w := Paginate(total, params);
    SliceSorted(sorted, key, w.offset, w.end);
  }

  /** Every item on a page is one of the listed items. */
  lemma PagedFromListed<T>(listed: seq<T>, key: T -> string, params: PageParams)
    requires ListPage(Ok(listed), key, params).Paged?
    ensures var items := ListPage(Ok(listed), key, params).data.items;
      forall i :: 0 <= i < |items| ==> items[i] in listed
  {
    var items := ListPage(Ok(listed), key, params).data.items;
    var sorted := SortByName(listed, key);
    forall i | 0 <= i < |items|
      ensures items[i] in listed
    {
      var w := Paginate(|listed|, params);
      assert items[i] == sorted[w.offset + i];
      assert items[i] in multiset(sorted);
    }
  }

  lemma SliceSorted<T>(s: seq<T>, key: T -> string, lo: int, hi: int)
    requires SortedBy(s, key) && 0 <= lo <= hi <= |s|
    ensures SortedBy(s[lo..hi], key)
  {
    var page := s[lo..hi];
    forall i, j | 0 <= i < j < |page|
      ensures LessEq(key(page[i]), key(page[j]))
    {
      assert page[i] == s[lo + i] && page[j] == s[lo + j];
    }
  }

  /** With a positive limit and a page of at least 1 the slice fails exactly when the list is
      empty and a page past the first is asked for. */
  lemma PanicsOnlyPastEmpty<T>(items: seq<T>, key: T -> string, params: PageParams)
    requires params.limit > 0 && params.page >= 1
    ensures ListPage(Ok(items), key, params).Panicked? <==> |items| == 0 && params.page > 1
  {
    WindowBounds(|items|, params);
  }

  /** Every item is shown: the one at position `q * limit + m` of the sorted list (with
      `m < limit`) is at position `m` of page `q + 1`. */
  lemma ItemOnItsPage<T>(items: seq<T>, key: T -> string, limit: int, q: int, m: int)
    requires limit > 0 && q >= 0 && 0 <= m < limit && q * limit + m < |items|
    ensures var r := ListPage(Ok(items), key, PageParams(q + 1, limit));
      && r.Paged?
      && r.data.paginator.page == q + 1
      && m < |r.data.items|
      && r.data.items[m] == SortByName(items, key)[q * limit + m]
  {
    PageOfIndex(|items|, limit, q, m);
  }

  /** The window of page `q + 1` is valid and holds index `q * limit + m` at `m`. */
  lemma PageOfIndex(total: nat, limit: int, q: int, m: int)
    requires limit > 0 && q >= 0 && 0 <= m < limit && q * limit + m < total
    ensures var w := Paginate(total, PageParams(q + 1, limit));
      && w.paginator.page == q + 1
      && 0 <= w.offset <= w.end
      && w.offset == q * limit
      && q * limit + m < w.end
  {
    var params := PageParams(q + 1, limit);
    var pt := PageTotal(total, limit);
    PageBelowTotal(q, limit, pt, q * limit + m);
    WindowBounds(total, params);
    var w := Paginate(total, params);
    assert w.paginator.page == q + 1;
    assert (q + 1 - 1) * limit == q * limit;
    assert w.offset == q * limit;
    assert w.offset + limit > q * limit + m;
  }

  /** The page holding index `i` exists. */
  lemma PageBelowTotal(q: int, limit: int, pt: int, i: int)
    requires limit > 0 && 0 <= q && q * limit <= i < pt * limit
    ensures q + 1 <= pt
  {
    if q + 1 > pt {
      MulMono(pt, q, limit);
    }
  }
}

=== FILE: pagination.dfy ===
/** Query-string paging parameters and the page window arithmetic (pkg/pagination).

    The source's `/` and `%` truncate toward zero. Every dividend here is a list length, which
    is never negative, and for a non-negative dividend truncating and Euclidean division agree
    whatever the divisor's sign, so Dafny's operators are used directly.
 */
module Pagination {
  import opened Results
  import opened Decimal

  const DefaultLimit: int := 10
  const DefaultPage: int := 1
  const QueryKeyPage: string := "page"
  const QueryKeyLimit: string := "limit"

  datatype PageParams = PageParams(page: int, limit: int)

  datatype Paginator = Paginator(total: int, pageTotal: int, limit: int, page: int)

  /** The request's query string, one value per key. */
  type QueryString = map<string, string>

  /** gin's Context.Query: the value, or "" when the key is absent. */
  function Query(q: QueryString, key: string): (v: string)
    ensures key !in q ==> v == ""
    ensures key in q ==> v == q[key]
  {
    if key in q then q[key] else ""
  }

  /** FromRequest: an absent or empty page is 1 and an absent or empty limit is 10; otherwise
      each is parsed with Atoi, the page first, and a parse error is returned. An explicit
      limit of 0 becomes DefaultPage (1); any other value, negative ones included, is kept. */
  function FromRequest(q: QueryString): (r: Result<PageParams>)
    ensures r.Ok? ==> r.value.limit != 0
    ensures Query(q, QueryKeyPage) != "" && Atoi(Query(q, QueryKeyPage)).Err? ==>
      r == Err(Atoi(Query(q, QueryKeyPage)).error)
    ensures (Query(q, QueryKeyPage) == "" || Atoi(Query(q, QueryKeyPage)).Ok?)
            && Query(q, QueryKeyLimit) != "" && Atoi(Query(q, QueryKeyLimit)).Err? ==>
      r == Err(Atoi(Query(q, QueryKeyLimit)).error)
    ensures r.Ok? ==> r.value.page == (if Query(q, QueryKeyPage) == "" then DefaultPage else Atoi(Query(q, QueryKeyPage)).value)
    ensures r.Ok? && Query(q, QueryKeyLimit) == "" ==> r.value.limit == DefaultLimit
    ensures r.Ok? && Query(q, QueryKeyLimit) != "" ==>
      Atoi(Query(q, QueryKeyLimit)).Ok?
      && r.value.limit == (if Atoi(Query(q, QueryKeyLimit)).value == 0 then DefaultPage else Atoi(Query(q, QueryKeyLimit)).value)
    ensures r.Err? <==>
      (Query(q, QueryKeyPage) != "" && Atoi(Query(q, QueryKeyPage)).Err?)
      || (Query(q, QueryKeyLimit) != "" && Atoi(Query(q, QueryKeyLimit)).Err?)
  {
    var pageText := Query(q, QueryKeyPage);
    var page :- if pageText != "" then Atoi(pageText) else Ok(DefaultPage);
    var limitText := Query(q, QueryKeyLimit);
    var limit :- if limitText != "" then Atoi(limitText) else Ok(DefaultLimit);
    Ok(PageParams(page, if limit == 0 then DefaultPage else limit))
  }

  /** A request without paging parameters asks for the first ten items. */
  lemma FromRequestDefaults(q: QueryString)
    requires QueryKeyPage !in q && QueryKeyLimit !in q
    ensures FromRequest(q) == Ok(PageParams(1, 10))
  {
  }

  /** Parameters spelled in decimal come back as they were (a zero limit excepted). */
  lemma FromRequestRoundTrip(page: int, limit: int)
    requires IntMin <= page <= IntMax && IntMin <= limit <= IntMax && limit != 0
    ensures FromRequest(map[QueryKeyPage := Itoa(page), QueryKeyLimit := Itoa(limit)]) == Ok(PageParams(page, limit))
  {
    AtoiItoa(page);
    AtoiItoa(limit);
    assert |Itoa(page)| > 0 && |Itoa(limit)| > 0;
  }

  /** The page a request gets and the bounds of the slice it covers. */
  datatype Window = Window(paginator: Paginator, offset: int, end: int)

  /** The number of pages: the quotient rounded up. */
  function PageTotal(total: nat, limit: int): (n: int)
    requires limit != 0
    ensures limit > 0 && total > 0 ==> (n - 1) * limit < total <= n * limit
    ensures limit > 0 ==> (n == 0 <==> total == 0)
  {
    if total % limit != 0 then total / limit + 1 else total / limit
  }

  /** Paginate: the page count is the quotient rounded up; a page past the last is moved back
      to the last (unless there are no pages); offset and end delimit the page, with end cut
      back to the total. A zero limit divides by zero in the source and is excluded. */
  function Paginate(total: nat, params: PageParams): (r: Window)
    requires params.limit != 0
    ensures r.paginator.total == total && r.paginator.limit == params.limit
    ensures r.paginator.pageTotal == PageTotal(total, params.limit)
    ensures r.paginator.page <= params.page
    ensures r.paginator.page != params.page ==>
      r.paginator.page == r.paginator.pageTotal && r.paginator.pageTotal != 0
    ensures params.page <= r.paginator.pageTotal || r.paginator.pageTotal == 0 ==> r.paginator.page == params.page
    ensures r.offset == (r.paginator.page - 1) * params.limit
    ensures r.end <= total
    ensures r.end == r.offset + params.limit || (r.end == total && r.offset + params.limit > total)
  {
    var limit := params.limit;
    var pageTotal := PageTotal(total, limit);
    var page := if params.page > pageTotal && pageTotal != 0 then pageTotal else params.page;
    var offset := (page - 1) * limit;
    var end := if offset + limit > total then total else offset + limit;
    Window(Paginator(total, pageTotal, limit, page), offset, end)
  }

  /** With a positive limit and a page of at least 1 the window never runs past the list or
      holds more than a page; on a non-empty list it is a non-empty slice; on an empty list
      only page 1 gives a valid slice. */
  lemma WindowBounds(total: nat, params: PageParams)
    requires params.limit > 0 && params.page >= 1
    ensures var w := Paginate(total, params);
      && w.end <= total
      && w.end - w.offset <= params.limit
      && (total > 0 ==> 0 <= w.offset < w.end <= total)
      && (total == 0 ==> (w.offset <= w.end <==> params.page == 1))
  {
    var w := Paginate(total, params);
    var pt := w.paginator.pageTotal;
    if total > 0 {
      assert 1 <= w.paginator.page <= pt;
      assert (w.paginator.page - 1) * params.limit <= (pt - 1) * params.limit;
    } else {
      assert w.end == 0;
      if params.page > 1 {
        assert w.offset >= params.limit;
      }
    }
  }

  lemma MulMono(a: int, b: int, c: int)
    requires a <= b && c >= 0
    ensures a * c <= b * c
  {
  }

  /** Consecutive pages tile the list: page 1 starts at 0, each page ends where the next
      begins, and the last page ends at the total. */
  lemma PagesTile(total: nat, limit: int, page: int)
    requires limit > 0 && total > 0
    requires 1 <= page <= PageTotal(total, limit)
    ensures Paginate(total, PageParams(1, limit)).offset == 0
    ensures page < PageTotal(total, limit) ==>
      Paginate(total, PageParams(page, limit)).end == Paginate(total, PageParams(page + 1, limit)).offset
    ensures page == PageTotal(total, limit) ==> Paginate(total, PageParams(page, limit)).end == total
  {
    var pt := PageTotal(total, limit);
    var a := Paginate(total, PageParams(page, limit));
    assert a.paginator.page == page;
    assert a.offset + limit == page * limit;
    if page < pt {
      var b := Paginate(total, PageParams(page + 1, limit));
      assert b.paginator.page == page + 1;
      MulMono(page, pt - 1, limit);
    }
  }
}

=== FILE: pod_repository.dfy ===
/** Pod reads over the cluster registry (internal/repository/pod.go). Every operation first
    looks the cluster up in the registry and fails with "cluster resources not exists" when it
    is missing; List parses the label selector before even that.
 */
module PodRepository {
  import opened Results
  import opened Strings
  import opened KubeObjects
  import opened ClusterResource

  /** The pods whose IP contains `ip`, in their order. */
  function WithPodIP(pods: seq<Pod>, ip: string): (r: seq<Pod>)
    ensures |r| <= |pods|
    ensures forall i :: 0 <= i < |r| ==> r[i] in pods && IsSubstring(ip, r[i].podIP)
    ensures forall i :: 0 <= i < |pods| && IsSubstring(ip, pods[i].podIP) ==> pods[i] in r
  {
    if |pods| == 0 then []
    else
      ContainsIff(pods[0].podIP, ip);
      (if Contains(pods[0].podIP, ip) then [pods[0]] else []) + WithPodIP(pods[1..], ip)
  }

  /** Filtering a concatenation filters each part; one pod is kept exactly when its IP
      contains the text. */
  lemma {:induction false} WithPodIPAppend(a: seq<Pod>, b: seq<Pod>, ip: string)
    ensures WithPodIP(a + b, ip) == WithPodIP(a, ip) + WithPodIP(b, ip)
  {
    if |a| == 0 {
      assert a + b == b;
    } else {
      assert (a + b)[0] == a[0] && (a + b)[1..] == a[1..] + b;
      WithPodIPAppend(a[1..], b, ip);
    }
  }

  /** Each pod whose IP contains the text is kept as many times as it is listed, and no other
      pod is. */
  lemma {:induction false} WithPodIPCount(pods: seq<Pod>, ip: string, p: Pod)
    ensures multiset(WithPodIP(pods, ip))[p] == if IsSubstring(ip, p.podIP) then multiset(pods)[p] else 0
  {
    if |pods| > 0 {
      assert pods == [pods[0]] + pods[1..];
      ContainsIff(pods[0].podIP, ip);
      WithPodIPCount(pods[1..], ip, p);
    }
  }

  /** One pod is kept exactly when its IP contains the text. */
  lemma WithPodIPOne(x: Pod, ip: string)
    ensures WithPodIP([x], ip) == if IsSubstring(ip, x.podIP) then [x] else []
  {
    assert [x][1..] == [] && WithPodIP([x][1..], ip) == [];
    ContainsIff(x.podIP, ip);
  }

  /** List: with a pod IP, the cluster-wide selector matches whose IP contains it (the
      namespace is not consulted and the lister's error is dropped); otherwise the lister
      output, namespace-scoped when a namespace is given, with its error. */
  function List(registry: Registry, parse: SelectorParser, clusterName: string, labelSelector: string,
                namespace: string, podIP: string): (r: Listing<Pod>)
    ensures parse(labelSelector).Err? ==> r == Listing([], Some(parse(labelSelector).error))
    ensures parse(labelSelector).Ok? && clusterName !in registry ==> r == Listing([], Some(ClusterNotExists))
    ensures parse(labelSelector).Ok? && clusterName in registry ==>
      var pods := registry[clusterName].caches.pods;
      var sel := parse(labelSelector).value;
      && (podIP != "" ==>
            r.err.None?
            && (forall p :: p in r.items <==> p in pods.objects && sel(p.labels) && IsSubstring(podIP, p.podIP))
            && forall p :: multiset(r.items)[p] ==
                 if sel(p.labels) && IsSubstring(podIP, p.podIP) then multiset(pods.objects)[p] else 0)
      && (podIP == "" ==> r.err == pods.failure)
      && (podIP == "" && namespace != "" ==>
            && (forall p :: p in r.items <==> p in pods.objects && sel(p.labels) && p.namespace == namespace)
            && forall p :: multiset(r.items)[p] ==
                 if sel(p.labels) && p.namespace == namespace then multiset(pods.objects)[p] else 0)
      && (podIP == "" && namespace == "" ==>
            && (forall p :: p in r.items <==> p in pods.objects && sel(p.labels))
            && forall p :: multiset(r.items)[p] == if sel(p.labels) then multiset(pods.objects)[p] else 0)
  {
    match parse(labelSelector)
    case Err(e) => Listing([], Some(e))
    case Ok(sel) =>
      if clusterName !in registry then Listing([], Some(ClusterNotExists))
      else
        var pods := registry[clusterName].caches.pods;
        var all := ListPods(pods, sel);
        if podIP != "" then
          forall p: Pod
            ensures multiset(WithPodIP(all.items, podIP))[p]
                 == if sel(p.labels) && IsSubstring(podIP, p.podIP) then multiset(pods.objects)[p] else 0
          {
            SelectCount(pods.objects, sel, PodLabels, p);
            WithPodIPCount(all.items, podIP, p);
          }
          Listing(WithPodIP(all.items, podIP), None)
        else if namespace != "" then
          forall p: Pod
            ensures multiset(InNamespace(all.items, namespace))[p]
                 == if sel(p.labels) && p.namespace == namespace then multiset(pods.objects)[p] else 0
          {
            SelectCount(pods.objects, sel, PodLabels, p);
            InNamespaceCount(all.items, namespace, p);
          }
          ListPodsIn(pods, namespace, sel)
        else
          forall p: Pod
            ensures multiset(all.items)[p] == if sel(p.labels) then multiset(pods.objects)[p] else 0
          {
            SelectCount(pods.objects, sel, PodLabels, p);
          }
          all
  }

  /** With a pod IP given, the namespace argument makes no difference. */
  lemma PodIPIgnoresNamespace(registry: Registry, parse: SelectorParser, clusterName: string,
                              labelSelector: string, ns1: string, ns2: string, podIP: string)
    requires podIP != ""
    ensures List(registry, parse, clusterName, labelSelector, ns1, podIP)
         == List(registry, parse, clusterName, labelSelector, ns2, podIP)
  {
  }

  /** Get: the pod with that namespace and name in the cluster's cache. */
  function Get(registry: Registry, clusterName: string, namespace: string, name: string): (r: Result<Pod>)
    ensures clusterName !in registry ==> r == Err(ClusterNotExists)
    ensures r.Ok? ==>
      clusterName in registry && r.value in registry[clusterName].caches.pods.objects
      && r.value.namespace == namespace && r.value.name == name
    ensures clusterName in registry && r.Err? ==>
      r == Err(NotFound("pod", name))
      && forall p :: p in registry[clusterName].caches.pods.objects ==> !(p.namespace == namespace && p.name == name)
  {
    if clusterName !in registry then Err(ClusterNotExists)
    else GetPod(registry[clusterName].caches.pods, namespace, name)
  }

  /** GetClientSet: the clientset stored in the cluster's record. */
  function GetClientSet(registry: Registry, clusterName: string): (r: Result<ClientSet>)
    ensures r.Ok? <==> clusterName in registry
    ensures r.Ok? ==> r.value == registry[clusterName].clientSet
    ensures r.Err? ==> r.error == ClusterNotExists
  {
    if clusterName in registry then Ok(registry[clusterName].clientSet) else Err(ClusterNotExists)
  }

  /** GetRestConfig: the rest config stored in the cluster's record. */
  function GetRestConfig(registry: Registry, clusterName: string): (r: Result<RestConfig>)
    ensures r.Ok? <==> clusterName in registry
    ensures r.Ok? ==> r.value == registry[clusterName].restConfig
    ensures r.Err? ==> r.error == ClusterNotExists
  {
    if clusterName in registry then Ok(registry[clusterName].restConfig) else Err(ClusterNotExists)
  }
}

=== FILE: pod_service.dfy ===
/** The pod service (internal/service/pod.go): paged listing over the pod repository, Get,
    and the two streaming calls, Log and Exec, up to the point where the stream opens.
 */
module PodService {
  import opened Results
  import opened Strings
  import opened Sorting
  import opened KubeObjects
  import opened ClusterResource
  import opened Pagination
  import opened PageData
  import PodRepository
  import WsClient

  /** List: the repository's pods sorted stably by name and cut to the requested page. */
  function List(registry: Registry, parse: SelectorParser, clusterName: string, labelSelector: string,
                namespace: string, podIP: string, params: PageParams): (r: ListOutcome<Pod>)
    ensures IsPageOf(r, AsResult(PodRepository.List(registry, parse, clusterName, labelSelector, namespace, podIP)),
                     PodName, params)
    ensures parse(labelSelector).Err? ==> r == Failed(parse(labelSelector).error)
    ensures parse(labelSelector).Ok? && clusterName !in registry ==> r == Failed(ClusterNotExists)
    ensures r.Paged? ==>
      && clusterName in registry
      && SortedBy(r.data.items, PodName)
      && (params.limit > 0 ==> |r.data.items| <= params.limit)
      && (forall i :: 0 <= i < |r.data.items| ==> r.data.items[i] in registry[clusterName].caches.pods.objects)
      && (podIP != "" ==> forall i :: 0 <= i < |r.data.items| ==> IsSubstring(podIP, r.data.items[i].podIP))
      && (podIP == "" && namespace != "" ==> forall i :: 0 <= i < |r.data.items| ==> r.data.items[i].namespace == namespace)
  {
    var listed := AsResult(PodRepository.List(registry, parse, clusterName, labelSelector, namespace, podIP));
    var r := ListPage(listed, PodName, params);
    if r.Paged? then
      PagedFromListed(listed.value, PodName, params);
      r
    else r
  }

  /** Get: the pod with that namespace and name in the cluster's cache. */
  function Get(registry: Registry, clusterName: string, namespace: string, name: string): (r: Result<Pod>)
    ensures clusterName !in registry ==> r == Err(ClusterNotExists)
    ensures r.Ok? ==>
      clusterName in registry && r.value in registry[clusterName].caches.pods.objects
      && r.value.namespace == namespace && r.value.name == name
    ensures clusterName in registry ==>
      (r.Err? <==> forall p :: p in registry[clusterName].caches.pods.objects ==> !(p.namespace == namespace && p.name == name))
    ensures clusterName in registry && r.Err? ==> r == Err(NotFound("pod", name))
  {
    PodRepository.Get(registry, clusterName, namespace, name)
  }

  /** The log request issued on a cluster's clientset. */
  datatype LogRequest = LogRequest(clientSet: ClientSet, namespace: string, podName: string)

  /** Log: the clientset lookup comes first; `stream` is how opening the log stream turns out. */
  function Log(registry: Registry, clusterName: string, namespace: string, podName: string, stream: Outcome): (r: Result<LogRequest>)
    ensures clusterName !in registry ==> r == Err(ClusterNotExists)
    ensures clusterName in registry && stream.Fail? ==> r == Err(stream.error)
    ensures r.Ok? <==> clusterName in registry && stream.Pass?
    ensures r.Ok? ==> r.value == LogRequest(registry[clusterName].clientSet, namespace, podName)
  {
    var clientSet :- PodRepository.GetClientSet(registry, clusterName);
    match stream
    case Fail(e) => Err(e)
    case Pass => Ok(LogRequest(clientSet, namespace, podName))
  }

  /** The shell every terminal session runs: bash when it is executable, sh otherwise. */
  const ShellCommand: seq<string> := ["sh", "-c", "[ -x /bin/bash ] && exec /bin/bash || exec /bin/sh"]

  datatype ExecOptions = ExecOptions(container: string, command: seq<string>,
                                     stdin: bool, stdout: bool, stderr: bool, tty: bool)

  /** The exec options: the container, the shell command, and all three streams on a TTY. */
  function ExecRequest(container: string): (o: ExecOptions)
    ensures o.container == container && o.command == ShellCommand
    ensures o.stdin && o.stdout && o.stderr && o.tty
  {
    ExecOptions(container, ShellCommand, true, true, true, true)
  }

  /** What Exec hands to the SPDY executor: the cluster's handles, the pod, the options and
      the terminal bridge that serves as stdin, stdout, stderr and size queue. */
  datatype ExecSession = ExecSession(clientSet: ClientSet, restConfig: RestConfig, namespace: string,
                                     podName: string, options: ExecOptions, terminal: WsClient.WSClient)

  datatype ExecResult = ExecResult(session: Option<ExecSession>, err: Option<Error>)

  /** Exec: the clientset and rest config lookups come first; then the executor is built
      (`executor`) and the stream run to its end (`stream`). The terminal bridge comes from
      NewWSClient as written, so its size channel is nil. */
  function Exec(registry: Registry, clusterName: string, namespace: string, podName: string, container: string,
                conn: WsClient.Transport, executor: Outcome, stream: Outcome): (r: ExecResult)
    ensures clusterName !in registry ==> r == ExecResult(None, Some(ClusterNotExists))
    ensures r.session.Some? <==> clusterName in registry && executor.Pass?
    ensures r.session.Some? ==>
      var rec := registry[clusterName];
      r.session.value == ExecSession(rec.clientSet, rec.restConfig, namespace, podName,
                                     ExecRequest(container), WsClient.NewWSClientAsWritten(conn))
    ensures clusterName in registry && executor.Fail? ==> r.err == Some(executor.error)
    ensures r.err.None? <==> clusterName in registry && executor.Pass? && stream.Pass?
    ensures clusterName in registry && executor.Pass? && stream.Fail? ==> r.err == Some(stream.error)
  {
    ExecWith(registry, clusterName, namespace, podName, container, WsClient.NewWSClientAsWritten(conn), executor, stream)
  }

  /** Exec with the terminal bridge's size channel allocated. */
  function ExecCorrected(registry: Registry, clusterName: string, namespace: string, podName: string, container: string,
                         conn: WsClient.Transport, executor: Outcome, stream: Outcome): (r: ExecResult)
    ensures r.session.Some? <==> clusterName in registry && executor.Pass?
    ensures r.session.Some? ==>
      var rec := registry[clusterName];
      r.session.value == ExecSession(rec.clientSet, rec.restConfig, namespace, podName,
                                     ExecRequest(container), WsClient.NewWSClient(conn))
    ensures r.err.None? <==> clusterName in registry && executor.Pass? && stream.Pass?
  {
    ExecWith(registry, clusterName, namespace, podName, container, WsClient.NewWSClient(conn), executor, stream)
  }

  /** The steps of Exec around a given terminal bridge. */
  function ExecWith(registry: Registry, clusterName: string, namespace: string, podName: string, container: string,
                    terminal: WsClient.WSClient, executor: Outcome, stream: Outcome): (r: ExecResult)
    ensures clusterName !in registry ==> r == ExecResult(None, Some(ClusterNotExists))
    ensures r.session.Some? <==> clusterName in registry && executor.Pass?
    ensures r.session.Some? ==>
      var rec := registry[clusterName];
      r.session.value == ExecSession(rec.clientSet, rec.restConfig, namespace, podName, ExecRequest(container), terminal)
    ensures clusterName in registry && executor.Fail? ==> r.err == Some(executor.error)
    ensures r.err.None? <==> clusterName in registry && executor.Pass? && stream.Pass?
    ensures clusterName in registry && executor.Pass? && stream.Fail? ==> r.err == Some(stream.error)
  {
    match PodRepository.GetClientSet(registry, clusterName)
    case Err(e) => ExecResult(None, Some(e))
    case Ok(clientSet) =>
      match PodRepository.GetRestConfig(registry, clusterName)
      case Err(e) => ExecResult(None, Some(e))
      case Ok(restConfig) =>
        match executor
        case Fail(e) => ExecResult(None, Some(e))
        case Pass =>
          var session := ExecSession(clientSet, restConfig, namespace, podName, ExecRequest(container), terminal);
          match stream
          case Fail(e) => ExecResult(Some(session), Some(e))
          case Pass => ExecResult(Some(session), None)
  }

  /** In every session Exec opens, the first resize frame the browser sends blocks the bridge's
      Read for good. */
  lemma ExecResizeBlocks(registry: Registry, clusterName: string, namespace: string, podName: string,
                         container: string, conn: WsClient.Transport, executor: Outcome, stream: Outcome,
                         p: seq<WsClient.byte>)
    requires |conn.inbound| > 0 && conn.inbound[0].Decoded? && conn.inbound[0].msg.messageType == "resize"
    ensures var r := Exec(registry, clusterName, namespace, podName, container, conn, executor, stream);
      r.session.Some? ==> WsClient.Read(r.session.value.terminal, p).ReadBlocked?
  {
  }

  /** With the channel allocated, the same frame is queued for the executor and the Read
      returns. */
  lemma ExecCorrectedResizeQueued(registry: Registry, clusterName: string, namespace: string, podName: string,
                                  container: string, conn: WsClient.Transport, executor: Outcome, stream: Outcome,
                                  p: seq<WsClient.byte>)
    requires |conn.inbound| > 0 && conn.inbound[0].Decoded? && conn.inbound[0].msg.messageType == "resize"
    ensures var r := ExecCorrected(registry, clusterName, namespace, podName, container, conn, executor, stream);
      var m := conn.inbound[0].msg;
      r.session.Some? ==>
        var rd := WsClient.Read(r.session.value.terminal, p);
        rd.ReadDone? && rd.err.None? && WsClient.Next(rd.client).Got? && WsClient.Next(rd.client).size == WsClient.TerminalSize(m.cols, m.rows)
  {
  }
}

=== FILE: response.dfy ===
/** The JSON envelopes the HTTP layer answers with (pkg/util/httputil/response): an error
    envelope with a code, a message and the error payload, and a success envelope with code 0.
 */
module Response {

  const ErrorCodeNotFound: int := 10004
  const ErrorMessageNotFound: string := "not found"
  const ErrorCodeInternalError: int := 10005
  const ErrorMessageInternalError: string := "internal error"
  const SuccessCode: int := 0
  const SuccessMessage: string := "success"

  datatype ErrorResponse<T> = ErrorResponse(code: int, message: string, errors: T)

  datatype SuccessResponse<T> = SuccessResponse(code: int, message: string, result: T)

  /** How a client reads an envelope's code. */
  datatype Kind = NotFoundKind | InternalErrorKind | SuccessKind | OtherKind

  function KindOf(code: int): Kind
  {
    if code == ErrorCodeNotFound then NotFoundKind
    else if code == ErrorCodeInternalError then InternalErrorKind
    else if code == SuccessCode then SuccessKind
    else OtherKind
  }

  function ErrorNotFound<T>(errors: T): (r: ErrorResponse<T>)
    ensures KindOf(r.code) == NotFoundKind && r.message == ErrorMessageNotFound
    ensures r.errors == errors
  {
    ErrorResponse(ErrorCodeNotFound, ErrorMessageNotFound, errors)
  }

  function ErrorInternalError<T>(errors: T): (r: ErrorResponse<T>)
    ensures KindOf(r.code) == InternalErrorKind && r.message == ErrorMessageInternalError
    ensures r.errors == errors
  {
    ErrorResponse(ErrorCodeInternalError, ErrorMessageInternalError, errors)
  }

  /** NewSuccessResponse: total, code 0, the payload unchanged. */
  function NewSuccessResponse<T>(result: T): (r: SuccessResponse<T>)
    ensures KindOf(r.code) == SuccessKind && r.message == SuccessMessage
    ensures r.result == result
  {
    SuccessResponse(SuccessCode, SuccessMessage, result)
  }
}

=== FILE: results.dfy ===
/** Error values and failure-compatible wrappers shared by every module of the model.

    Go functions return `(value, error)` pairs; the model returns a `Result` instead, and a
    bare `error` becomes an `Outcome`. Errors that the code creates itself carry their own
    constructor; errors that come from code outside the model (client-go, the API server,
    the WebSocket library) are `Remote` values supplied as inputs.
 */
module Results {

  datatype Option<+T> = None | Some(value: T)

  datatype Error =
    | ClusterNotExists                        // "cluster resources not exists"
    | NotFound(kind: string, name: string)    // a lister or API lookup that found nothing
    | InvalidKey(key: string)                 // a work-queue key that does not split
    | UnknownMessageType(messageType: string) // "unknown message type '<t>'"
    | ConnectionClosed                        // the transport has no further frame
    | SyntaxError(text: string)               // strconv: invalid syntax
    | RangeError(text: string)                // strconv: value out of range
    | Remote(detail: string)                  // any failure reported by an external call

  /** The text the source attaches to the errors it creates itself. */
  function Message(e: Error): string
  {
    match e
    case ClusterNotExists => "cluster resources not exists"
    case UnknownMessageType(t) => "unknown message type '" + t + "'"
    case NotFound(kind, name) => kind + " \"" + name + "\" not found"
    case InvalidKey(key) => "unexpected key format: \"" + key + "\""
    case ConnectionClosed => "websocket: close"
    case SyntaxError(text) => "strconv.Atoi: parsing \"" + text + "\": invalid syntax"
    case RangeError(text) => "strconv.Atoi: parsing \"" + text + "\": value out of range"
    case Remote(detail) => detail
  }

  /** A value or the error that prevented it. */
  datatype Result<+T> = Ok(value: T) | Err(error: Error) {

    predicate IsFailure() {
      Err?
    }

    function PropagateFailure<U>(): Result<U>
      requires Err?
    {
      Err(error)
    }

    function Extract(): T
      requires Ok?
    {
      value
    }

    /** The Go `error` half of the pair. */
    function ErrorOf(): Option<Error>
    {
      match this
      case Ok(_) => None
      case Err(e) => Some(e)
    }
  }

  /** The outcome of a call that returns only an `error`. */
  datatype Outcome = Pass | Fail(error: Error) {

    function ErrorOf(): Option<Error>
    {
      match this
      case Pass => None
      case Fail(e) => Some(e)
    }
  }
}

=== FILE: sorting.dfy ===
/** sort.SliceStable with `less(i, j) = items[i].Name < items[j].Name`, as the four list
    services call it: a stable sort by a string key, modelled as an insertion sort.
 */
module Sorting {
  import opened Strings

  /** The elements of `s` whose key is `k`, in their order in `s`. */
  function WithKey<T>(s: seq<T>, key: T -> string, k: string): seq<T>
  {
    if |s| == 0 then [] else (if key(s[0]) == k then [s[0]] else []) + WithKey(s[1..], key, k)
  }

  lemma {:induction false} WithKeyAppend<T>(a: seq<T>, b: seq<T>, key: T -> string, k: string)
    ensures WithKey(a + b, key, k) == WithKey(a, key, k) + WithKey(b, key, k)
  {
    if |a| > 0 {
      WithKeyAppend(a[1..], b, key, k);
      assert (a + b)[1..] == a[1..] + b;
    } else {
      assert a + b == b;
    }
  }

  /** The filter keeps exactly the elements with key `k`. */
  lemma {:induction false} WithKeyMembers<T>(s: seq<T>, key: T -> string, k: string)
    ensures forall i :: 0 <= i < |WithKey(s, key, k)| ==> key(WithKey(s, key, k)[i]) == k && WithKey(s, key, k)[i] in s
    ensures forall i :: 0 <= i < |s| && key(s[i]) == k ==> s[i] in WithKey(s, key, k)
  {
    if |s| > 0 {
      WithKeyMembers(s[1..], key, k);
      var head := if key(s[0]) == k then [s[0]] else [];
      var r := WithKey(s, key, k);
      assert r == head + WithKey(s[1..], key, k);
      forall i | 0 < i < |s| && key(s[i]) == k
        ensures s[i] in r
      {
        assert s[i] == s[1..][i - 1];
      }
    }
  }

  /** Ascending by key under Go's string order. */
  ghost predicate SortedBy<T>(s: seq<T>, key: T -> string)
  {
    forall i, j :: 0 <= i < j < |s| ==> LessEq(key(s[i]), key(s[j]))
  }

  /** Puts `x` in front of the first element whose key is not below its own, so that `x`
      stays ahead of the elements with an equal key. */
  function Insert<T>(x: T, t: seq<T>, key: T -> string): seq<T>
  {
    if |t| == 0 then [x]
    else if LessEq(key(x), key(t[0])) then [x] + t
    else [t[0]] + Insert(x, t[1..], key)
  }

  lemma {:induction false} InsertPermutes<T>(x: T, t: seq<T>, key: T -> string)
    ensures multiset(Insert(x, t, key)) == multiset{x} + multiset(t)
  {
    if |t| > 0 && !LessEq(key(x), key(t[0])) {
      InsertPermutes(x, t[1..], key);
      assert t == [t[0]] + t[1..];
    }
  }

  lemma {:induction false} InsertSorted<T>(x: T, t: seq<T>, key: T -> string)
    requires SortedBy(t, key)
    ensures SortedBy(Insert(x, t, key), key)
  {
    if |t| == 0 {
    } else if LessEq(key(x), key(t[0])) {
      forall j | 0 <= j < |t|
        ensures LessEq(key(x), key(t[j]))
      {
        if j > 0 {
          LessEqTransitive(key(x), key(t[0]), key(t[j]));
        }
      }
      SortedCons(x, t, key);
    } else {
      LessEqTotal(key(x), key(t[0]));
      var u := Insert(x, t[1..], key);
      InsertSorted(x, t[1..], key);
      InsertPermutes(x, t[1..], key);
      forall j | 0 <= j < |u|
        ensures LessEq(key(t[0]), key(u[j]))
      {
        var y := u[j];
        assert y in multiset(u);
        if y != x {
          assert y in multiset(t[1..]);
          var m :| 0 <= m < |t[1..]| && t[1..][m] == y;
          assert t[m + 1] == y;
        }
      }
      SortedCons(t[0], u, key);
    }
  }

  /** A sorted list stays sorted with an element in front that is below all of it. */
  lemma SortedCons<T>(y: T, u: seq<T>, key: T -> string)
    requires SortedBy(u, key)
    requires forall j :: 0 <= j < |u| ==> LessEq(key(y), key(u[j]))
    ensures SortedBy([y] + u, key)
  {
    var r := [y] + u;
    forall i, j | 0 <= i < j < |r|
      ensures LessEq(key(r[i]), key(r[j]))
    {
      assert r[j] == u[j - 1];
      if i > 0 {
        assert r[i] == u[i - 1];
      }
    }
  }

  /** Inserting `x` adds it to the front of its own key class and leaves every other class
      unchanged. */
  lemma {:induction false} InsertStable<T>(x: T, t: seq<T>, key: T -> string, k: string)
    ensures WithKey(Insert(x, t, key), key, k)
         == (if key(x) == k then [x] else []) + WithKey(t, key, k)
    decreases |t|
  {
    if |t| == 0 {
      assert WithKey([x], key, k) == (if key(x) == k then [x] else []) + WithKey([], key, k);
    } else if LessEq(key(x), key(t[0])) {
      assert ([x] + t)[1..] == t;
    } else {
      InsertStable(x, t[1..], key, k);
      InsertStablePast(x, t, key, k);
    }
  }

  /** The step of InsertStable where `x` moves past the first element of `t`. */
  lemma InsertStablePast<T>(x: T, t: seq<T>, key: T -> string, k: string)
    requires |t| > 0 && !LessEq(key(x), key(t[0]))
    requires WithKey(Insert(x, t[1..], key), key, k)
          == (if key(x) == k then [x] else []) + WithKey(t[1..], key, k)
    ensures WithKey(Insert(x, t, key), key, k)
         == (if key(x) == k then [x] else []) + WithKey(t, key, k)
  {
    LessEqReflexive(key(x));
    var front := if key(x) == k then [x] else [];
    var head := if key(t[0]) == k then [t[0]] else [];
    var u := Insert(x, t[1..], key);
    var rest := WithKey(t[1..], key, k);
    assert ([t[0]] + u)[1..] == u;
    assert WithKey(Insert(x, t, key), key, k) == head + (front + rest);
    assert WithKey(t, key, k) == head + rest;
    assert head == [] || front == [];
    assert head + (front + rest) == front + (head + rest);
  }

  /** The stable sort: ascending, a permutation, and within each key in the input order. */
  function SortByName<T>(s: seq<T>, key: T -> string): (r: seq<T>)
    ensures multiset(r) == multiset(s) && |r| == |s|
    ensures SortedBy(r, key)
    ensures forall k :: WithKey(r, key, k) == WithKey(s, key, k)
  {
    if |s| == 0 then []
    else
      var t := SortByName(s[1..], key);
      InsertKeepsOrder(s, t, key);
      Insert(s[0], t, key)
  }

  /** The step of the sort: inserting the head into the sorted tail sorts the whole list. */
  lemma InsertKeepsOrder<T>(s: seq<T>, t: seq<T>, key: T -> string)
    requires |s| > 0 && multiset(t) == multiset(s[1..]) && |t| == |s| - 1 && SortedBy(t, key)
    requires forall k :: WithKey(t, key, k) == WithKey(s[1..], key, k)
    ensures var r := Insert(s[0], t, key);
      && multiset(r) == multiset(s) && |r| == |s| && SortedBy(r, key)
      && forall k :: WithKey(r, key, k) == WithKey(s, key, k)
  {
    InsertSorted(s[0], t, key);
    InsertKeepsItems(s, t, key);
    InsertKeepsKeyOrder(s, t, key);
  }

  lemma InsertKeepsItems<T>(s: seq<T>, t: seq<T>, key: T -> string)
    requires |s| > 0 && multiset(t) == multiset(s[1..])
    ensures var r := Insert(s[0], t, key);
      multiset(r) == multiset(s) && |r| == |s|
  {
    var r := Insert(s[0], t, key);
    InsertPermutes(s[0], t, key);
    assert s == [s[0]] + s[1..];
    assert |multiset(r)| == |r|;
  }

  lemma InsertKeepsKeyOrder<T>(s: seq<T>, t: seq<T>, key: T -> string)
    requires |s| > 0 && SortedBy(t, key)
    requires forall k :: WithKey(t, key, k) == WithKey(s[1..], key, k)
    ensures forall k :: WithKey(Insert(s[0], t, key), key, k) == WithKey(s, key, k)
  {
    var r := Insert(s[0], t, key);
    forall k
      ensures WithKey(r, key, k) == WithKey(s, key, k)
    {
      InsertStable(s[0], t, key, k);
    }
  }
}

=== FILE: strings.dfy ===
/** The parts of Go's `strings` package and of Go's string ordering that the core relies on.

    A Go string is a byte sequence; the model uses Dafny's `string` (a sequence of Unicode
    scalar values). UTF-8 preserves code-point order, so comparing code points orders strings
    the way Go's byte-wise `<` does.
 */
module Strings {

  /** `sub` occurs in `s` starting at index `i`. */
  ghost predicate OccursAt(s: string, sub: string, i: int)
  {
    0 <= i && i + |sub| <= |s| && s[i..i + |sub|] == sub
  }

  /** The specification of substring containment: some index where `sub` occurs. */
  ghost predicate IsSubstring(sub: string, s: string)
  {
    exists i :: OccursAt(s, sub, i)
  }

  predicate HasPrefix(s: string, prefix: string)
  {
    |prefix| <= |s| && s[..|prefix|] == prefix
  }

  predicate HasSuffix(s: string, suffix: string)
  {
    |suffix| <= |s| && s[|s| - |suffix|..] == suffix
  }

  /** strings.Contains: scans the start positions of `s` left to right. */
  predicate Contains(s: string, sub: string)
    decreases |s|
  {
    HasPrefix(s, sub) || (|s| > 0 && Contains(s[1..], sub))
  }

  /** The scanning definition agrees with the index-based specification, in both directions. */
  lemma {:induction false} ContainsIff(s: string, sub: string)
    ensures Contains(s, sub) <==> IsSubstring(sub, s)
  {
    if Contains(s, sub) {
      ContainsOccurs(s, sub);
    }
    if IsSubstring(sub, s) {
      var i :| OccursAt(s, sub, i);
      OccursContains(s, sub, i);
    }
  }

  /** The scan stops at an occurrence. */
  lemma {:induction false} ContainsOccurs(s: string, sub: string)
    requires Contains(s, sub)
    ensures IsSubstring(sub, s)
    decreases |s|
  {
    if HasPrefix(s, sub) {
      assert OccursAt(s, sub, 0);
    } else {
      ContainsOccurs(s[1..], sub);
      var i :| OccursAt(s[1..], sub, i);
      assert s[1..][i..i + |sub|] == s[i + 1..i + 1 + |sub|];
      assert OccursAt(s, sub, i + 1);
    }
  }

  /** The scan reaches every occurrence. */
  lemma {:induction false} OccursContains(s: string, sub: string, i: int)
    requires OccursAt(s, sub, i)
    ensures Contains(s, sub)
    decreases i
  {
    if i == 0 {
      assert HasPrefix(s, sub);
    } else {
      assert s[1..][i - 1..i - 1 + |sub|] == s[i..i + |sub|];
      OccursContains(s[1..], sub, i - 1);
    }
  }

  /** The empty string is contained in every string, as with Go's strings.Contains. */
  lemma ContainsEmpty(s: string)
    ensures Contains(s, "")
  {
    assert HasPrefix(s, "");
  }

  /** Go's `a <= b` on strings: lexicographic, a proper prefix sorts first. */
  predicate LessEq(a: string, b: string)
  {
    |a| == 0 || (|b| > 0 && (a[0] < b[0] || (a[0] == b[0] && LessEq(a[1..], b[1..]))))
  }

  /** Go's `a < b` on strings. */
  predicate Less(a: string, b: string)
  {
    !LessEq(b, a)
  }

  lemma {:induction false} LessEqReflexive(a: string)
    ensures LessEq(a, a)
    decreases |a|
  {
    if |a| > 0 {
      LessEqReflexive(a[1..]);
    }
  }

  lemma {:induction false} LessEqTotal(a: string, b: string)
    ensures LessEq(a, b) || LessEq(b, a)
    decreases |a|
  {
    if |a| > 0 && |b| > 0 && a[0] == b[0] {
      LessEqTotal(a[1..], b[1..]);
    }
  }

  lemma {:induction false} LessEqTransitive(a: string, b: string, c: string)
    requires LessEq(a, b) && LessEq(b, c)
    ensures LessEq(a, c)
    decreases |a|
  {
    if |a| > 0 && a[0] == b[0] && b[0] == c[0] {
      LessEqTransitive(a[1..], b[1..], c[1..]);
    }
  }

  lemma {:induction false} LessEqAntisymmetric(a: string, b: string)
    requires LessEq(a, b) && LessEq(b, a)
    ensures a == b
    decreases |a|
  {
    if |a| > 0 {
      LessEqAntisymmetric(a[1..], b[1..]);
      assert a == [a[0]] + a[1..];
      assert b == [b[0]] + b[1..];
    }
  }

  /** The index of the first `c` in `s`, or `|s|` when there is none. */
  function IndexOf(s: string, c: char): (r: nat)
    ensures r <= |s|
    ensures r < |s| ==> s[r] == c
    ensures forall j :: 0 <= j < r ==> s[j] != c
  {
    if |s| == 0 then 0
    else if s[0] == c then 0
    else 1 + IndexOf(s[1..], c)
  }

  /** Searching past a prefix that does not hold `c` finds `c` at the first place in the rest. */
  lemma IndexOfAfter(a: string, c: char, b: string)
    requires c !in a
    ensures IndexOf(a + [c] + b, c) == |a|
  {
    var s := a + [c] + b;
    assert s[|a|] == c;
    assert forall j :: 0 <= j < |a| ==> s[j] == a[j];
  }
}

=== FILE: wsclient.dfy ===
/** The terminal bridge between a browser WebSocket and a remote shell
    (pkg/kubernetes/wsclient): `Read` feeds the shell from the socket's frames, `Write` wraps
    the shell's output in frames, and `Next` hands terminal resizes to the executor.

    The socket is a pair of sequences: the frames still to arrive (each either a decoded
    message or the error decoding produced) and the frames sent so far. JSON encoding is not
    modelled: a frame carries the message's fields directly.
 */
module WsClient {
  import opened Results

  newtype byte = x: int | 0 <= x < 0x100
  newtype uint16 = x: int | 0 <= x < 0x1_0000

  /** The wire message: its type ("stdin", "resize", "stdout", ...), the payload bytes and the
      terminal dimensions that only resize messages use. */
  datatype Message = Message(messageType: string, data: seq<byte>, rows: uint16, cols: uint16)

  datatype TerminalSize = TerminalSize(width: uint16, height: uint16)

  /** What reading one JSON frame from the socket yields. */
  datatype Frame = Decoded(msg: Message) | Undecodable(error: Error)

  datatype Transport = Transport(inbound: seq<Frame>, outbound: seq<Message>)

  /** The resize channel: Go's zero value (nil), on which every send and receive blocks, or an
      allocated channel holding the sizes sent and not yet received. */
  datatype SizeChan = NilChan | Chan(pending: seq<TerminalSize>)

  datatype WSClient = WSClient(transport: Transport, sizeChan: SizeChan)

  /** NewWSClient as written: only the connection is set, so the size channel stays nil. */
  function NewWSClientAsWritten(conn: Transport): (w: WSClient)
    ensures w.transport == conn && w.sizeChan.NilChan?
  {
    WSClient(conn, NilChan)
  }

  /** NewWSClient with the size channel allocated, as `Read` and `Next` need it. */
  function NewWSClient(conn: Transport): (w: WSClient)
    ensures w.transport == conn && w.sizeChan == Chan([])
  {
    WSClient(conn, Chan([]))
  }

  /** The outcome of one Read: the client afterwards, the caller's buffer after the copy, and
      Go's `(n, err)`; or a send on the size channel that never completes. */
  datatype ReadResult =
    | ReadDone(client: WSClient, buffer: seq<byte>, n: nat, err: Option<Error>)
    | ReadBlocked(client: WSClient)

  function Min(a: nat, b: nat): nat
  {
    if a <= b then a else b
  }

  /** Read: take the next frame. A stdin frame is copied into `p` as far as it fits; a resize
      frame is sent on the size channel as (Cols, Rows) and reports nothing read; any other type
      is an error. A closed socket and a decoding error are returned as they are. */
  function Read(w: WSClient, p: seq<byte>): (r: ReadResult)
    ensures r.ReadBlocked? <==>
      |w.transport.inbound| > 0 && w.transport.inbound[0].Decoded?
      && w.transport.inbound[0].msg.messageType == "resize" && w.sizeChan.NilChan?
    ensures r.ReadDone? ==> |r.buffer| == |p| && r.client.transport.outbound == w.transport.outbound
    ensures |w.transport.inbound| == 0 ==> r == ReadDone(w, p, 0, Some(ConnectionClosed))
    ensures |w.transport.inbound| > 0 && w.transport.inbound[0].Undecodable? ==>
      r.ReadDone? && r.n == 0 && r.err == Some(w.transport.inbound[0].error)
      && r.buffer == p && r.client.sizeChan == w.sizeChan
    ensures |w.transport.inbound| > 0 && w.transport.inbound[0].Decoded? ==>
      var m := w.transport.inbound[0].msg;
      && (m.messageType == "stdin" ==>
            && r.ReadDone? && r.err.None? && r.client.sizeChan == w.sizeChan
            && r.n == Min(|p|, |m.data|)
            && r.buffer[..r.n] == m.data[..r.n] && r.buffer[r.n..] == p[r.n..])
      && (m.messageType == "resize" && w.sizeChan.Chan? ==>
            && r.ReadDone? && r.n == 0 && r.err.None? && r.buffer == p
            && r.client.sizeChan == Chan(w.sizeChan.pending + [TerminalSize(m.cols, m.rows)]))
      && (m.messageType != "stdin" && m.messageType != "resize" ==>
            && r.ReadDone? && r.n == 0 && r.buffer == p && r.client.sizeChan == w.sizeChan
            && r.err == Some(UnknownMessageType(m.messageType)))
    ensures r.ReadDone? && |w.transport.inbound| > 0 ==> r.client.transport.inbound == w.transport.inbound[1..]
  {
    if |w.transport.inbound| == 0 then ReadDone(w, p, 0, Some(ConnectionClosed))
    else
      var rest := w.(transport := w.transport.(inbound := w.transport.inbound[1..]));
      match w.transport.inbound[0]
      case Undecodable(e) => ReadDone(rest, p, 0, Some(e))
      case Decoded(m) =>
        if m.messageType == "stdin" then
          var n := Min(|p|, |m.data|);
          ReadDone(rest, m.data[..n] + p[n..], n, None)
        else if m.messageType == "resize" then
          match w.sizeChan
          case NilChan => ReadBlocked(w)
          case Chan(q) => ReadDone(rest.(sizeChan := Chan(q + [TerminalSize(m.cols, m.rows)])), p, 0, None)
        else ReadDone(rest, p, 0, Some(UnknownMessageType(m.messageType)))
  }

  /** A buffer at least as long as the payload receives all of it. */
  lemma StdinFitsWhole(w: WSClient, p: seq<byte>)
    requires |w.transport.inbound| > 0 && w.transport.inbound[0].Decoded?
    requires w.transport.inbound[0].msg.messageType == "stdin"
    requires |w.transport.inbound[0].msg.data| <= |p|
    ensures var r := Read(w, p);
      r.ReadDone? && r.n == |w.transport.inbound[0].msg.data| && r.buffer[..r.n] == w.transport.inbound[0].msg.data
  {
  }

  /** The outcome of one Write: the client afterwards and Go's `(n, err)`. */
  datatype WriteResult = WriteResult(client: WSClient, n: nat, err: Option<Error>)

  /** Write: wrap `p` in a stdout message with zero dimensions and send it; `send` says whether
      the socket accepted the frame. */
  function Write(w: WSClient, p: seq<byte>, send: Outcome): (r: WriteResult)
    ensures r.client.sizeChan == w.sizeChan && r.client.transport.inbound == w.transport.inbound
    ensures send.Pass? ==>
      && r.n == |p| && r.err.None?
      && r.client.transport.outbound == w.transport.outbound + [Message("stdout", p, 0, 0)]
    ensures send.Fail? ==> r.n == 0 && r.err == Some(send.error) && r.client == w
  {
    match send
    case Fail(e) => WriteResult(w, 0, Some(e))
    case Pass =>
      var sent := w.transport.outbound + [Message("stdout", p, 0, 0)];
      WriteResult(w.(transport := w.transport.(outbound := sent)), |p|, None)
  }

  /** The payloads of a run of sent messages, concatenated. */
  function Payload(msgs: seq<Message>): seq<byte>
  {
    if |msgs| == 0 then [] else Payload(msgs[..|msgs| - 1]) + msgs[|msgs| - 1].data
  }

  function Concat(chunks: seq<seq<byte>>): seq<byte>
  {
    if |chunks| == 0 then [] else Concat(chunks[..|chunks| - 1]) + chunks[|chunks| - 1]
  }

  /** The shell writing `chunks` one after another over a socket that accepts every frame. */
  function WriteAll(w: WSClient, chunks: seq<seq<byte>>): WSClient
  {
    if |chunks| == 0 then w
    else Write(WriteAll(w, chunks[..|chunks| - 1]), chunks[|chunks| - 1], Pass).client
  }

  /** The browser receives the shell's output stream unchanged: the new frames are all stdout
      frames and their payloads concatenate to the bytes written. */
  lemma {:induction false} WriteAllPreservesStream(w: WSClient, chunks: seq<seq<byte>>)
    ensures var out := WriteAll(w, chunks).transport.outbound;
      && |out| == |w.transport.outbound| + |chunks|
      && out[..|w.transport.outbound|] == w.transport.outbound
      && (forall i :: |w.transport.outbound| <= i < |out| ==> out[i].messageType == "stdout")
      && Payload(out[|w.transport.outbound|..]) == Concat(chunks)
  {
    if |chunks| > 0 {
      var init := chunks[..|chunks| - 1];
      WriteAllPreservesStream(w, init);
      var before := WriteAll(w, init).transport.outbound;
      var out := WriteAll(w, chunks).transport.outbound;
      var k := |w.transport.outbound|;
      assert out == before + [Message("stdout", chunks[|chunks| - 1], 0, 0)];
      assert out[k..] == before[k..] + [out[|out| - 1]];
      assert out[k..][..|out[k..]| - 1] == before[k..];
    }
  }

  datatype NextResult = Got(client: WSClient, size: TerminalSize) | NextBlocked

  /** Next: receive one size. A nil channel never delivers; an allocated one delivers the
      oldest pending size, or waits for a Read to send one. */
  function Next(w: WSClient): (r: NextResult)
    ensures r.Got? <==> w.sizeChan.Chan? && |w.sizeChan.pending| > 0
    ensures r.Got? ==>
      && r.size == w.sizeChan.pending[0]
      && r.client == w.(sizeChan := Chan(w.sizeChan.pending[1..]))
  {
    match w.sizeChan
    case NilChan => NextBlocked
    case Chan(q) => if |q| == 0 then NextBlocked else Got(w.(sizeChan := Chan(q[1..])), q[0])
  }

  /** The sizes the resize frames among `frames` carry, in order, as (Cols, Rows). */
  function Resizes(frames: seq<Frame>): seq<TerminalSize>
  {
    if |frames| == 0 then []
    else
      var last := frames[|frames| - 1];
      Resizes(frames[..|frames| - 1])
        + (if last.Decoded? && last.msg.messageType == "resize" then [TerminalSize(last.msg.cols, last.msg.rows)] else [])
  }

  /** The executor's stdin loop: `k` Reads with the same buffer, stopping at a blocked send. */
  function ReadLoop(w: WSClient, p: seq<byte>, k: nat): ReadResult
  {
    if k == 0 then ReadDone(w, p, 0, None)
    else
      match ReadLoop(w, p, k - 1)
      case ReadBlocked(c) => ReadBlocked(c)
      case ReadDone(c, _, _, _) => Read(c, p)
  }

  /** With the channel allocated, reading `k` frames consumes them and queues their resizes in
      arrival order. */
  lemma {:induction false} ReadLoopQueuesResizes(w: WSClient, p: seq<byte>, k: nat)
    requires w.sizeChan.Chan? && k <= |w.transport.inbound|
    ensures var r := ReadLoop(w, p, k);
      && r.ReadDone?
      && r.client.transport.inbound == w.transport.inbound[k..]
      && r.client.sizeChan == Chan(w.sizeChan.pending + Resizes(w.transport.inbound[..k]))
  {
    if k > 0 {
      ReadLoopQueuesResizes(w, p, k - 1);
      var frames := w.transport.inbound;
      assert frames[..k][..k - 1] == frames[..k - 1];
      assert frames[k - 1..][0] == frames[k - 1];
      assert frames[k - 1..][1..] == frames[k..];
    }
  }

  /** `k` calls of Next, collecting the sizes. */
  function Drain(w: WSClient, k: nat): (r: Option<seq<TerminalSize>>)
    decreases k
  {
    if k == 0 then Some([])
    else
      match Next(w)
      case NextBlocked => None
      case Got(c, size) =>
        match Drain(c, k - 1)
        case None => None
        case Some(rest) => Some([size] + rest)
  }

  lemma {:induction false} DrainInOrder(w: WSClient, k: nat)
    requires w.sizeChan.Chan? && k <= |w.sizeChan.pending|
    ensures Drain(w, k) == Some(w.sizeChan.pending[..k])
    decreases k
  {
    if k > 0 {
      var q := w.sizeChan.pending;
      DrainInOrder(w.(sizeChan := Chan(q[1..])), k - 1);
      assert q[..k] == [q[0]] + q[1..][..k - 1];
    }
  }

  /** Next returns the sizes in the order Read received their frames: a fresh client that
      reads every frame hands out exactly the resizes among them, first to last. */
  lemma ResizesReachNextInOrder(conn: Transport, p: seq<byte>)
    ensures var r := ReadLoop(NewWSClient(conn), p, |conn.inbound|);
      r.ReadDone? && Drain(r.client, |Resizes(conn.inbound)|) == Some(Resizes(conn.inbound))
  {
    var w := NewWSClient(conn);
    ReadLoopQueuesResizes(w, p, |conn.inbound|);
    assert conn.inbound[..|conn.inbound|] == conn.inbound;
    var r := ReadLoop(w, p, |conn.inbound|);
    DrainInOrder(r.client, |Resizes(conn.inbound)|);
    assert r.client.sizeChan.pending[..|Resizes(conn.inbound)|] == Resizes(conn.inbound);
  }

  /** As written, the first resize frame stops the bridge: the send on the nil channel never
      completes, and Next never returns. */
  lemma ResizeBlocksAsWritten(rows: uint16, cols: uint16, p: seq<byte>)
    ensures var w := NewWSClientAsWritten(Transport([Decoded(Message("resize", [], rows, cols))], []));
      Read(w, p).ReadBlocked? && Next(w).NextBlocked?
  {
  }

  /** With the channel allocated the same frame is read and its size delivered by Next. */
  lemma ResizeDeliveredWhenAllocated(rows: uint16, cols: uint16, p: seq<byte>)
    ensures var r := Read(NewWSClient(Transport([Decoded(Message("resize", [], rows, cols))], [])), p);
      && r.ReadDone? && r.n == 0 && r.err.None?
      && Next(r.client).Got? && Next(r.client).size == TerminalSize(cols, rows)
  {
  }
}
